=== FILE: README.md ===
# itho_parser in Dafny

A model of `itho_parser.py`. The tool reads an Itho Daalderop ventilation
unit's parameter file, which is an Access database. It finds the firmware
versions the file describes and loads each version's parameter and
datalabel catalogs. For one version it turns the datalabels into Home
Assistant MQTT sensor discovery descriptors (`HAMQTTSensor`).

The model is functional:

- The data are immutable datatypes.
- Each step is a function, or a method where the proof follows the source's loop with invariants. The loops of `find_versions` and of the table-name resolution are methods; the row-loading and descriptor loops are recursive functions.
- Errors the source raises are `Failure` values of `Results.Result`.
- The parts the tool gets from outside are parameters:
  - the table names the extraction tool lists;
  - the rows the relational store returns for a table name (none when the query fails);
  - Home Assistant's unit and state-class tables.

Modules, in dependency order:

| module | file | models |
|---|---|---|
| `Results` | results.dfy | `Option`, `Result`, the error kinds, Python truthiness, `str(None)`, an exception aborting a loop |
| `HomeAssistant` | home_assistant.dfy | the ten classes of `DEVICE_CLASSES` and the injected `DEVICE_CLASS_UNITS` / `DEVICE_CLASS_STATE_CLASSES` |
| `Units` | units.dfy | `HAMQTTSensor.__fix_unit` |
| `TableNames` | table_names.dfy | the `~` filter of `parse`; the regex `.+V[0-9]{1,2}$` and `int(name.split("_V")[-1])` of `find_versions`; `str(n)` |
| `Versions` | versions.dfy | `find_versions` |
| `Catalog` | catalog.dfy | `IthoParameter`, `IthoDatalabel`; table resolution and row loading of `find_parameters` / `find_datalabels` |
| `Sensors` | sensors.dfy | `HAMQTTSensor.__init__`, `__find_device_class`, the value template, `to_dict` as an insertion-ordered dict |
| `IthoParser` | parser.dfy | the parser state, the load pipeline, `get_ha_sensors` |
| `Scenarios` | scenarios.dfy | concrete cases: unit rewrites as published, ambiguity, state class, table-name quirks |

### Quirks of the code the model keeps

- **Template unit.** The value template (itho_parser.py:93-95) uses
  `self.unit_of_measurement` after `__fix_unit` rewrote it (lines 99-109),
  not the raw unit.
  - "M3/h" and "m³/h" are keyed as "m3/h".
  - "uur" is keyed as "hour".
- **Device-class lookup.** `__find_device_class` (lines 117-121) matches
  `fixed_unit_of_measurement`, the display unit. So "m³/h" and "h" are the
  units matched, not "m3/h" and "hour".
- **The "-" unit.** "-" keeps "-" as its unit (lines 110-111), so the
  template key ends in "(-)". Its display unit is `None`, so the
  device-class lookup (line 81) runs with `None` as the unit, and `to_dict`
  publishes no `unit_of_measurement` (line 136).
- **Lower-case table names.** Only `find_parameters` (lines 378-379) accepts
  the lower-case `parameterlijst_V<n>` spelling, and it then uses the
  capitalised name. `find_datalabels` (line 403) has no such fallback, and
  the version regex (line 356) is case-sensitive.
- **The empty first table name.** `current_table` starts as "" (lines 372
  and 399). A first version without a table of its own therefore queries
  `SELECT * FROM  ORDER BY ...` (lines 383, 408). That is a syntax error, so
  the load fails.

## Model

| member | source | states |
|---|---|---|
| HomeAssistant.DeviceClassesComplete | itho_parser.py:29-40 | the scanned class list has ten entries, each class exactly once |
| Units.FixUnit | itho_parser.py:97-113 | the lookup unit is never one of the replaced spellings; only those spellings change it; the display unit is None exactly for "-"; a display unit differing from the raw unit comes only from a volume-flow or hour spelling |
| Units.FixUnitTable | itho_parser.py:97-113 | the rewrite of each listed spelling (lookup unit, display unit) and the identity on every other unit |
| Units.FixUnitIdempotent | itho_parser.py:97-113 | rewriting a rewritten unit keeps the lookup unit; the display unit is kept too, except that "uur" shows as "h" while its rewritten "hour" would show as "hour" |
| Units.VolumeFlowSpellingsAgree | itho_parser.py:99-106 | the three spellings of cubic metres per hour give the same lookup and display unit, displayed with the superscript three |
| Sensors.Matching | itho_parser.py:117-121 | the filtered classes are exactly the listed classes registering the unit, without repeats when the list has none |
| Sensors.MatchingCount | itho_parser.py:117-128 | over a list holding every class once: no match iff no class registers the unit; one match is the only registering class; two or more iff two different classes register it |
| Sensors.FindDeviceClass | itho_parser.py:115-128 | no class iff no class registers the display unit; the class found is the unique one registering it; the error MultipleDeviceClassesFound iff two different classes register it |
| Sensors.TemplateKey | itho_parser.py:93-95 | a key read from a template is exactly what lies between the fixed template text |
| Sensors.ValueTemplate | itho_parser.py:93-95 | the template built from a label and unit gives back the key "label (unit)", with a missing unit rendered "None" |
| Sensors.TemplateInjective | itho_parser.py:93-95 | equal templates come from equal payload keys |
| Sensors.NewSensor | itho_parser.py:63-95 | fails iff the unit is truthy and its display unit is ambiguous; identity and topics are copied; a truthy unit is rewritten and an absent or empty one left alone and unclassified; the device class is the unique one registering the display unit; a state class exists iff the class has one, and it is the first; the template is keyed by the label and the rewritten unit |
| Sensors.Put | itho_parser.py:131-149 | dict assignment: the key reads back the new value, other keys are unchanged, a new key goes last and a present key keeps its place |
| Sensors.PutValid | itho_parser.py:131-149 | assignment keeps the key order listing each stored key exactly once |
| Sensors.PutInOrder | itho_parser.py:131-149 | assigning a new key ranked after every present key keeps the keys in rank order |
| Sensors.PutSome | itho_parser.py:136-143 | a conditional assignment sets the key only when there is a value and leaves every other key alone |
| Sensors.KeyAt | itho_parser.py:131-149 | the key at each position has that position as its rank |
| Sensors.KeyNamesDistinct | itho_parser.py:132-147 | distinct keys have distinct JSON names |
| Sensors.PutFromFacts | itho_parser.py:131-149 | the assignments from one position on keep the keys in order, set each later key to its published value and leave earlier keys alone |
| Sensors.PutFromValid | itho_parser.py:131-149 | the assignments keep the key order in step with the stored keys |
| Sensors.ToDict | itho_parser.py:130-149 | the mapping lists each stored key once, in the fixed order name, unique_id, state_topic, value_template, unit_of_measurement, device_class, state_class, availability, payload_available, payload_not_available; each key holds its published value: the unit only when the display unit is truthy, device and state class only when set, the rest always |
| TableNames.DropTemporary | itho_parser.py:313 | no kept name starts with "~", and the list does not grow |
| TableNames.Keep | itho_parser.py:313 | a name contributes nothing iff it starts with "~", otherwise itself |
| TableNames.DropTemporaryMembers | itho_parser.py:313 | a name is kept iff it is listed and does not start with "~" |
| TableNames.DropTemporaryConcat | itho_parser.py:313 | the filter distributes over concatenation, so kept names keep their relative order |
| TableNames.DropTemporaryIdempotent | itho_parser.py:313 | filtering twice is filtering once |
| TableNames.LastMarker | itho_parser.py:362 | finds the last "_V" of the name: it is one, and none comes after it |
| TableNames.LastPiece | itho_parser.py:362 | `split("_V")[-1]` is a suffix of the name holding no "_V", and it is either the whole name or comes right after a "_V" |
| TableNames.LastPieceUnique | itho_parser.py:362 | no other suffix of the name has those three properties, so they define the last piece |
| TableNames.VersionTagged | itho_parser.py:356-359 | `re.match(".+V[0-9]{1,2}$")`; as a predicate it carries no contract of its own: `TableNames.TagPosition` and `TableNames.SuffixShape` state what a match guarantees |
| TableNames.DecimalString | itho_parser.py:376 | `str(n)` is a non-empty digit string without a leading zero, one digit iff n < 10, at most two below 100 |
| TableNames.DecimalRoundTrip | itho_parser.py:376 | reading a rendered number back gives the number |
| TableNames.ParseVersion | itho_parser.py:362 | `int` on the suffixes `find_versions` passes it, per `SuffixShape`: non-empty digits with at most one final line break are read, anything else raises; a number read from digits without a leading zero renders back to exactly those digits |
| TableNames.LeadingZeroValue | itho_parser.py:362 | a leading zero adds nothing to the value of a digit string |
| TableNames.LeadingZeroIgnored | itho_parser.py:362 | `int` reads zero-padded digits as the digits without the zero, so "05" is 5 |
| TableNames.RenderDigits | itho_parser.py:362 | rendering the value of digits without a leading zero gives the digits back |
| TableNames.ParseVersionRoundTrip | itho_parser.py:362-376 | `int` reads back what `str` renders, with or without a final line break |
| TableNames.LetterNeverParses | itho_parser.py:362 | `int` rejects any text holding a "V" |
| TableNames.Classify | itho_parser.py:356-363 | a version read from a table name is below 100 |
| TableNames.SuffixShape | itho_parser.py:356-362 | for a name the regex accepts, the text after the last "_V" is either a number below 100 or contains a "V", which `int` rejects |
| TableNames.TagPosition | itho_parser.py:356-359 | a regex match has its "V" followed by one or two digits and at most one final line break |
| TableNames.SuffixAfterUnderscore | itho_parser.py:362 | with "_" before the tag's "V", the text after the last "_V" is the tag's digits and parses below 100 |
| TableNames.SuffixKeepsTag | itho_parser.py:362 | without "_" before the tag's "V", the text after the last "_V" still contains that "V" |
| TableNames.DigitsBelow100 | itho_parser.py:356 | one or two digits are worth less than 100 |
| TableNames.TableNameRoundTrip | itho_parser.py:376-379 | a built name "<prefix>_V<n>" is recognised as version n for every n below 100 |
| Versions.CountsFromOneShape | itho_parser.py:366 | the version list 1..n is strictly ascending, gap-free and holds exactly 1..n |
| Versions.UpTo | itho_parser.py:366 | `range(1, n + 1)` has n elements and counts from one |
| Versions.TopSpec | itho_parser.py:357-364 | the reference maximum bounds every version number and, when positive, is one of them |
| Versions.Scan | itho_parser.py:357-364 | the scan stops at the first name `int` rejects; otherwise every version seen is at most the maximum, a positive maximum is some name's version, and the maximum equals the reference `Top` |
| Versions.FindVersions | itho_parser.py:354-366 | fails iff some tagged name has a non-integer suffix, naming the first; otherwise the versions are 1..max, where max is `Top` of the classified names, bounds every tagged version, is carried by some name, and stays below 100 |
| Catalog.ParameterTableFor | itho_parser.py:376-379 | a table exists iff the capitalised or lower-case name is listed, and it is always the capitalised name, which is tagged with the version |
| Catalog.DatalabelTableFor | itho_parser.py:403-404 | a table exists iff the capitalised name is listed, and that name is tagged with the version |
| Catalog.LatestHitSpec | itho_parser.py:372-379 | the current table is absent iff no version so far has one, else the table of a version after which none has one |
| Catalog.CarryOver | itho_parser.py:372-379 | one name per version: the latest table found up to that version, or "" before any; the loop's result equals the reference `ResolvedNames` |
| Catalog.ParameterTables | itho_parser.py:372-379 | the parameter table used for each version is the latest one resolved so far |
| Catalog.DatalabelTables | itho_parser.py:399-404 | the datalabel table used for each version is the latest one resolved so far |
| Catalog.Answers | itho_parser.py:372-394 | a resolved name yields rows when it is non-empty and its query succeeds; as a predicate it carries no contract of its own: `Catalog.LoadCatalog` states success iff every name `Answers` |
| Catalog.LoadCatalog | itho_parser.py:372-394 | the load succeeds iff every resolved name is non-empty and its query succeeds; a failure names the first table that fails, the empty name included |
| Catalog.LoadCatalogKeys | itho_parser.py:373-394 | a loaded catalog has exactly the versions as keys |
| Catalog.LoadCatalogValues | itho_parser.py:383-394 | without repeated versions, each version holds the rows of its table |
| IthoParser.FindParameters | itho_parser.py:369-394 | one table per version, carried over; on success the catalog's keys are the versions and each holds its table's rows |
| IthoParser.FindDatalabels | itho_parser.py:396-417 | one table per version, carried over without a lower-case fallback; on success the keys are the versions and each holds its table's rows |
| IthoParser.Load | itho_parser.py:354-417 | on success: the tables are the filtered list; the versions are 1..`Top` of its tags, bounded by and reached by a tag; both catalogs cover every version, each holding the rows of its resolved tables. Fails on a non-integer tag iff a kept name has one, and the error names the first such name. Otherwise succeeds iff both catalog loads over the resolved names succeed, and a failure is the parameter load's error first, else the datalabel load's |
| IthoParser.SensorFor | itho_parser.py:428-437 | a datalabel's descriptor fails only with MultipleDeviceClassesFound |
| IthoParser.SensorForFails | itho_parser.py:79-128 | a datalabel's descriptor fails iff its unit is present, non-empty and its display form is registered by two different classes |
| IthoParser.SensorForDescribes | itho_parser.py:428-437 | a built descriptor is named by the English text, with the fixed identity, topics and payloads, the rewritten and display units of the English unit, a template keyed by the English tooltip, the one device class registering the display unit (none for a missing or empty unit) and that class's first state class |
| Results.MapResults | itho_parser.py:426-440 | the list succeeds iff every element does, with one result per element in order; a failure is the first element's failure |
| IthoParser.SensorsFor | itho_parser.py:426-440 | one descriptor per datalabel in order, or the ambiguity error of the first ambiguous datalabel |
| IthoParser.SensorsDescribe | itho_parser.py:426-440 | every descriptor of a successful list describes its datalabel |
| IthoParser.SensorsForSucceed | itho_parser.py:426-440 | the descriptor list succeeds iff no datalabel's unit is ambiguous |
| IthoParser.GetHaSensors | itho_parser.py:422-440 | FirmwareVersionNotFound iff the version is not discovered; for a loaded version, success iff no datalabel's unit is ambiguous; on success one descriptor per datalabel, each the datalabel's own descriptor and describing it |
| IthoParser.LoadedVersionsHaveSensors | itho_parser.py:422-427 | after a load, a discovered version yields descriptors or the ambiguity error |
| Scenarios.VolumeFlowDatalabel | itho_parser.py:99-101 | "M3/h" is keyed as "m3/h" and published as "m³/h" |
| Scenarios.HourDatalabel | itho_parser.py:107-109 | "uur" is keyed as "hour" and published as "h" |
| Scenarios.DashDatalabel | itho_parser.py:110-111 | "-" is keyed as "-" and publishes no unit |
| Scenarios.MissingUnitDatalabel | itho_parser.py:79-95 | a datalabel with a NULL unit always gets a descriptor, and it renders "None" in the key and publishes no unit, device class or state class |
| Scenarios.MissingUnitDescriptor | itho_parser.py:79-95 | any descriptor of a datalabel with a NULL unit renders "None" in the key and publishes no unit, device class or state class |
| Scenarios.NoUnitNoClass | itho_parser.py:79-86 | a descriptor of a datalabel with a NULL unit has no unit, display unit, device class or state class |
| Scenarios.AmbiguousUnitRejected | itho_parser.py:123-128 | a unit two classes register raises MultipleDeviceClassesFound |
| Scenarios.TemperatureClassified | itho_parser.py:83-86 | a unit one class registers gets that class and its first state class |
| Scenarios.LowercaseFallbackAsymmetry | itho_parser.py:376-404 | a lower-case parameter table resolves to the capitalised name, while a lower-case datalabel table is not found |
| Scenarios.CarryOverExample | itho_parser.py:399-404 | a version without a table reuses the previous one, and a first version without one resolves to nothing |
| Scenarios.MissingFirstDatalabelTableFails | itho_parser.py:399-409 | when version 1 has no datalabel table, its resolved name is "" and the catalog load fails with QueryFailed("") |
| Scenarios.LoadWithoutFirstDatalabelTable | itho_parser.py:396-409 | a file with a version tag numbered 1 or more but no "Datalabel_V1" never loads; with well-formed tags it fails on a query, on the empty name once the parameters have loaded |
| Scenarios.TwoDigitTag | itho_parser.py:356-362 | "Datalabel_V12" is version 12 |
| Scenarios.TagBeforeLineBreak | itho_parser.py:356-362 | a final line break is accepted by `$` and ignored by `int`; names split on line breaks at line 310 never end in one, so this pins down the regex only |
| Scenarios.TagWithoutUnderscore | itho_parser.py:356-362 | "DatalabelV3" matches the regex but its suffix is not an integer |
| Scenarios.NotTagged | itho_parser.py:356-359 | three digits, or nothing before the "V", are not tagged |
| Scenarios.ZeroPaddedTag | itho_parser.py:356-362 | the regex accepts "Datalabel_V05" and `int` reads its suffix as version 5 |
| Scenarios.ZeroPaddedTagNotResolved | itho_parser.py:356-404 | "Datalabel_V01" is discovered as version 1, but the loader looks for "Datalabel_V1" and does not find it |

## Left out

- The extraction of the database is not modelled. This covers the mdb tool subprocesses and their error checks, the temporary directory, the file copy, the SQLite connection, schema and data import, and `__del__` (lines 239-352). The listed table names and the per-table query results are parameters instead. The store is assumed to return rows already ordered by `Index`, as the query asks.
- The logging, the YAML output and the `__main__` driver (lines 443-463) are not modelled, and neither is `IthoDatalabel.__str__`, which only feeds the log.
- `get_versions` returns the version list unchanged and is not modelled separately.
- `IthoParameter.to_yaml` is an empty stub and is not modelled.
- The float columns `Min`, `Max` and `Default` of a parameter are not modelled; the floats are never used.
- Text columns other than a datalabel's units are plain strings, never NULL. In the source a NULL `Tekst_GB` or `Tooltip_GB` would still build a descriptor: the name would be `None`, the unique id "itho_432432_None" (line 430), and a NULL tooltip would show as "None (…)" in the template (line 94). The model does not cover these cases.
- Home Assistant's own unit and state-class tables are not modelled; they are injected as two total functions.
  - A class's state classes are a Python set, and `list(...)[0]` takes whichever comes first in its iteration order. The injected sequence stands for that order.
  - The enum string values that `str(device_class)` and `str(state_class)` give are not modelled. The published mapping holds the enum value itself.
- `get_ha_sensors` annotates its version as a string while the versions are integers. The model takes an integer, as the driver passes one.
- Versions discovered but missing from the datalabels map raise `KeyError` in the source. The model returns `CatalogNotLoaded`, which a successful load never leaves behind (`IthoParser.LoadedVersionsHaveSensors`).
- Catalog.LoadCatalogValues: stated only for version lists without repeats. The discovered versions are always 1..n, so repeats cannot occur after a load.
- IthoParser.SensorFor: its own contract states only the error kind. What a built descriptor holds is stated by `IthoParser.SensorForDescribes` and `Sensors.NewSensor`.
- Table names are matched by the regex model only. Python's regex engine and `str.split` in general are not modelled, just the pattern `.+V[0-9]{1,2}$` and the split on "_V".
- TableNames.ParseVersion: models `int` only on the strings it can receive here (digits after the last "_V" of a regex match, per `TableNames.SuffixShape`). Python's `int` also accepts surrounding whitespace, a sign and underscores between digits; those forms never reach it from `find_versions`, where every other suffix holds the tag's "V".

=== FILE: catalog.dfy ===
/** The catalog loader of `IthoParser.find_parameters` and
    `IthoParser.find_datalabels`: the records, the per-version table-name
    resolution with its carry-over, and the loading of one row sequence per
    version. The relational store itself is injected as a query function. */
module Catalog {
  import opened Results
  import opened TableNames

  /** One row of a `Parameterlijst_V<n>` table (`IthoParameter`). The numeric
      bounds `Min`, `Max` and `Default` are left out. */
  datatype Parameter = Parameter(
    index: int,
    order: int,
    name: string,
    factoryName: string,
    textNl: string, descriptionNl: string, unitNl: string,
    textGb: string, descriptionGb: string, unitGb: string,
    textDe: string, descriptionDe: string, unitDe: string,
    subtable: string,
    passwordLevel: int)

  /** One row of a `Datalabel_V<n>` table (`IthoDatalabel`). The unit columns
      may be NULL, which the sensor synthesizer treats as a missing unit. */
  datatype Datalabel = Datalabel(
    index: int,
    name: string,
    textNl: string, tooltipNl: string, unitNl: Option<string>,
    textGb: string, tooltipGb: string, unitGb: Option<string>,
    textDe: string, tooltipDe: string, unitDe: Option<string>,
    subtable: string,
    visible: int)

  // ---------------------------------------------------------------------------
  // Table names per version

  const ParameterTablePrefix: string := "Parameterlijst_V"
  const LowercaseParameterTablePrefix: string := "parameterlijst_V"
  const DatalabelTablePrefix: string := "Datalabel_V"

  /** The parameter table of version `v`, when the file has one: the
      capitalised name if present, else the lower-case variant — which still
      resolves to the capitalised name. */
  function ParameterTableFor(v: nat, tables: seq<string>): (r: Option<string>)
    ensures r.Some? <==>
              ParameterTablePrefix + DecimalString(v) in tables ||
              LowercaseParameterTablePrefix + DecimalString(v) in tables
    ensures r.Some? ==> r.value == ParameterTablePrefix + DecimalString(v)
    ensures r.Some? && v < 100 ==> Classify(r.value) == Version(v)
  {
    var name := ParameterTablePrefix + DecimalString(v);
    TableNameRoundTrip(ParameterTablePrefix, v);
    if name in tables then Some(name)
    else if LowercaseParameterTablePrefix + DecimalString(v) in tables then Some(name)
    else None
  }

  /** The datalabel table of version `v`, when the file has one. Only the
      capitalised name is tried. */
  function DatalabelTableFor(v: nat, tables: seq<string>): (r: Option<string>)
    ensures r.Some? <==> DatalabelTablePrefix + DecimalString(v) in tables
    ensures r.Some? ==> r.value == DatalabelTablePrefix + DecimalString(v)
    ensures r.Some? && v < 100 ==> Classify(r.value) == Version(v)
  {
    var name := DatalabelTablePrefix + DecimalString(v);
    TableNameRoundTrip(DatalabelTablePrefix, v);
    if name in tables then Some(name) else None
  }

  /** The table found for the last version of `vs` that has one. */
  function LatestHit(vs: seq<nat>, hit: nat -> Option<string>): Option<string> {
    if |vs| == 0 then None
    else if hit(vs[|vs| - 1]).Some? then hit(vs[|vs| - 1])
    else LatestHit(vs[..|vs| - 1], hit)
  }

  /** `LatestHit` is none exactly when no version has a table, and otherwise
      the table of a version after which no version has one. */
  lemma {:induction false} LatestHitSpec(vs: seq<nat>, hit: nat -> Option<string>)
    ensures LatestHit(vs, hit).None? <==> forall j :: 0 <= j < |vs| ==> hit(vs[j]).None?
    ensures LatestHit(vs, hit).Some? ==>
              exists j :: 0 <= j < |vs| && hit(vs[j]) == LatestHit(vs, hit) &&
                forall k :: j < k < |vs| ==> hit(vs[k]).None?
  {
    if |vs| > 0 && hit(vs[|vs| - 1]).None? {
      var n := |vs| - 1;
      LatestHitSpec(vs[..n], hit);
      assert forall j :: 0 <= j < n ==> vs[..n][j] == vs[j];
    }
  }

  /** The table name used for each version: the latest table found up to
      that version, or the empty name before any is found. */
  function ResolvedNames(versions: seq<nat>, hit: nat -> Option<string>): (r: seq<string>)
    ensures |r| == |versions|
  {
    seq(|versions|, i requires 0 <= i < |versions| => LatestHit(versions[..i + 1], hit).GetOr(""))
  }

  /** The parameter table name used for each version. */
  function ParameterNames(versions: seq<nat>, tables: seq<string>): (r: seq<string>)
    ensures |r| == |versions|
  {
    ResolvedNames(versions, (v: nat) => ParameterTableFor(v, tables))
  }

  /** The datalabel table name used for each version. */
  function DatalabelNames(versions: seq<nat>, tables: seq<string>): (r: seq<string>)
    ensures |r| == |versions|
  {
    ResolvedNames(versions, (v: nat) => DatalabelTableFor(v, tables))
  }

  /** The resolution loop shared by `find_parameters` and `find_datalabels`:
      the current table name starts empty and is replaced only for versions
      that have a table, so a version without one reuses the previous name. */
  method CarryOver(versions: seq<nat>, hit: nat -> Option<string>) returns (names: seq<string>)
    ensures |names| == |versions|
    ensures forall i :: 0 <= i < |versions| ==>
              names[i] == LatestHit(versions[..i + 1], hit).GetOr("")
    ensures names == ResolvedNames(versions, hit)
  {
    var current := "";
    names := [];
    for i := 0 to |versions|
      invariant |names| == i
      invariant forall j :: 0 <= j < i ==> names[j] == LatestHit(versions[..j + 1], hit).GetOr("")
      invariant current == LatestHit(versions[..i], hit).GetOr("")
    {
      assert versions[..i + 1][..i] == versions[..i];
      if hit(versions[i]).Some? {
        current := hit(versions[i]).value;
      }
      names := names + [current];
    }
  }

  /** The parameter table used for each version by `find_parameters`. */
  method ParameterTables(versions: seq<nat>, tables: seq<string>) returns (names: seq<string>)
    ensures |names| == |versions|
    ensures forall i :: 0 <= i < |versions| ==>
              names[i] == LatestHit(versions[..i + 1], (v: nat) => ParameterTableFor(v, tables)).GetOr("")
    ensures names == ParameterNames(versions, tables)
  {
    names := CarryOver(versions, (v: nat) => ParameterTableFor(v, tables));
  }

  /** The datalabel table used for each version by `find_datalabels`. */
  method DatalabelTables(versions: seq<nat>, tables: seq<string>) returns (names: seq<string>)
    ensures |names| == |versions|
    ensures forall i :: 0 <= i < |versions| ==>
              names[i] == LatestHit(versions[..i + 1], (v: nat) => DatalabelTableFor(v, tables)).GetOr("")
    ensures names == DatalabelNames(versions, tables)
  {
    names := CarryOver(versions, (v: nat) => DatalabelTableFor(v, tables));
  }

  // ---------------------------------------------------------------------------
  // Loading rows

  /** The store answers the query on table `name`. The empty name, which the
      resolution loop starts from, never answers: the query text then has no
      table after `FROM` and is a syntax error, whatever the store holds. */
  predicate Answers<R>(query: string -> Option<seq<R>>, name: string) {
    name != "" && query(name).Some?
  }

  /** Loads the rows of `names[i]` (ordered by index by the store) as the
      catalog of `versions[i]`, in order; the first query the store rejects
      aborts the load. */
  function LoadCatalog<R>(versions: seq<nat>, names: seq<string>,
                          query: string -> Option<seq<R>>): (r: Result<map<nat, seq<R>>>)
    requires |versions| == |names|
    ensures r.Success? <==> forall i :: 0 <= i < |names| ==> names[i] != "" && query(names[i]).Some?
    ensures r.Failure? ==>
              exists i :: 0 <= i < |names| && (names[i] == "" || query(names[i]).None?) &&
                r.error == QueryFailed(names[i]) &&
                forall j :: 0 <= j < i ==> Answers(query, names[j])
    decreases |versions|
  {
    if |versions| == 0 then Success(map[])
    else
      var n := |versions| - 1;
      assert forall i :: 0 <= i < n ==> names[..n][i] == names[i];
      match LoadCatalog(versions[..n], names[..n], query)
      case Failure(e) => Failure(e)
      case Success(m) =>
        if Answers(query, names[n]) then Success(m[versions[n] := query(names[n]).value])
        else Failure(QueryFailed(names[n]))
  }

  /** A loaded catalog has exactly the versions as keys. */
  lemma {:induction false} LoadCatalogKeys<R>(versions: seq<nat>, names: seq<string>,
                                              query: string -> Option<seq<R>>)
    requires |versions| == |names|
    requires LoadCatalog(versions, names, query).Success?
    ensures LoadCatalog(versions, names, query).value.Keys == set v | v in versions
    decreases |versions|
  {
    if |versions| > 0 {
      var n := |versions| - 1;
      LoadCatalogKeys(versions[..n], names[..n], query);
      assert versions == versions[..n] + [versions[n]];
    }
  }

  /** When no version repeats, a loaded catalog holds under each version the
      rows of its table. */
  lemma {:induction false} LoadCatalogValues<R>(versions: seq<nat>, names: seq<string>,
                                                query: string -> Option<seq<R>>)
    requires |versions| == |names| && Distinct(versions)
    requires LoadCatalog(versions, names, query).Success?
    ensures forall i :: 0 <= i < |versions| ==>
              && versions[i] in LoadCatalog(versions, names, query).value
              && LoadCatalog(versions, names, query).value[versions[i]] == query(names[i]).value
    decreases |versions|
  {
    if |versions| > 0 {
      var n := |versions| - 1;
      LoadCatalogValues(versions[..n], names[..n], query);
      assert forall i :: 0 <= i < n ==> versions[..n][i] == versions[i] && names[..n][i] == names[i];
    }
  }
}

=== FILE: home_assistant.dfy ===
/** The part of Home Assistant's sensor constants the synthesizer consults.
    The hub's own reference tables are not reproduced: they are injected as
    two total functions. */
module HomeAssistant {
  import opened Results

  /** The device classes this system considers: the ten-element subset
      `DEVICE_CLASSES` of the hub's `SensorDeviceClass`. */
  datatype DeviceClass =
    | ApparentPower
    | Co2
    | Current
    | Duration
    | Energy
    | Humidity
    | Power
    | Pressure
    | Temperature
    | VolumeFlowRate

  /** The hub's `SensorStateClass`. */
  datatype StateClass = Measurement | Total | TotalIncreasing

  /** `DEVICE_CLASSES`, in the order the inference scans it. */
  const DeviceClasses: seq<DeviceClass> :=
    [ApparentPower, Co2, Current, Duration, Energy,
     Humidity, Power, Pressure, Temperature, VolumeFlowRate]

  /** The injected reference lookup:
      `units(c)` is `DEVICE_CLASS_UNITS[c]` (a unit may be `None`), and
      `stateClasses(c)` is `DEVICE_CLASS_STATE_CLASSES[c]` in its iteration order. */
  datatype Tables = Tables(
    units: DeviceClass -> set<Option<string>>,
    stateClasses: DeviceClass -> seq<StateClass>)

  /** `DEVICE_CLASSES` lists each of the ten classes exactly once. */
  lemma DeviceClassesComplete()
    ensures |DeviceClasses| == 10
    ensures Distinct(DeviceClasses)
    ensures forall c: DeviceClass :: c in DeviceClasses
  {
    forall c: DeviceClass ensures c in DeviceClasses {
      match c
      case ApparentPower => assert DeviceClasses[0] == c;
      case Co2 => assert DeviceClasses[1] == c;
      case Current => assert DeviceClasses[2] == c;
      case Duration => assert DeviceClasses[3] == c;
      case Energy => assert DeviceClasses[4] == c;
      case Humidity => assert DeviceClasses[5] == c;
      case Power => assert DeviceClasses[6] == c;
      case Pressure => assert DeviceClasses[7] == c;
      case Temperature => assert DeviceClasses[8] == c;
      case VolumeFlowRate => assert DeviceClasses[9] == c;
    }
  }
}

=== FILE: parser.dfy ===
/** `IthoParser`: the pipeline state after extraction, version discovery and
    catalog loading, and `get_ha_sensors`, which turns the datalabels of one
    version into sensor descriptors. */
module IthoParser {
  import opened Results
  import opened HomeAssistant
  import opened Units
  import opened Sensors
  import opened TableNames
  import opened Versions
  import opened Catalog

  /** The fixed device identity and MQTT wiring of every descriptor. */
  const DeviceId: string := "itho_432432"
  const RootTopic: string := "itho_wtw"
  const IthoStatusTopic: string := RootTopic + "/ithostatus"
  const AvailabilityTopic: string := RootTopic + "/lwt"
  const PayloadAvailable: string := "online"
  const PayloadNotAvailable: string := "offline"

  /** The parser's state: the kept table names, the discovered versions and
      the parameter and datalabel rows loaded for each version. */
  datatype Parser = Parser(
    tables: seq<string>,
    versions: seq<nat>,
    parameters: map<nat, seq<Parameter>>,
    datalabels: map<nat, seq<Datalabel>>)

  // ---------------------------------------------------------------------------
  // Loading

  /** The parameter tables resolved for each version, then their rows. */
  method FindParameters(versions: seq<nat>, tables: seq<string>,
                        rows: string -> Option<seq<Parameter>>)
    returns (names: seq<string>, r: Result<map<nat, seq<Parameter>>>)
    ensures names == ParameterNames(versions, tables)
    ensures forall i :: 0 <= i < |versions| ==>
              names[i] == LatestHit(versions[..i + 1], (v: nat) => ParameterTableFor(v, tables)).GetOr("")
    ensures r == LoadCatalog(versions, names, rows)
    ensures r.Success? ==> r.value.Keys == set v | v in versions
    ensures r.Success? && Distinct(versions) ==>
              forall i :: 0 <= i < |versions| ==> rows(names[i]) == Some(r.value[versions[i]])
  {
    names := ParameterTables(versions, tables);
    r := LoadCatalog(versions, names, rows);
    if r.Success? {
      LoadCatalogKeys(versions, names, rows);
      if Distinct(versions) {
        LoadCatalogValues(versions, names, rows);
      }
    }
  }

  /** The datalabel tables resolved for each version, then their rows. */
  method FindDatalabels(versions: seq<nat>, tables: seq<string>,
                        rows: string -> Option<seq<Datalabel>>)
    returns (names: seq<string>, r: Result<map<nat, seq<Datalabel>>>)
    ensures names == DatalabelNames(versions, tables)
    ensures forall i :: 0 <= i < |versions| ==>
              names[i] == LatestHit(versions[..i + 1], (v: nat) => DatalabelTableFor(v, tables)).GetOr("")
    ensures r == LoadCatalog(versions, names, rows)
    ensures r.Success? ==> r.value.Keys == set v | v in versions
    ensures r.Success? && Distinct(versions) ==>
              forall i :: 0 <= i < |versions| ==> rows(names[i]) == Some(r.value[versions[i]])
  {
    names := DatalabelTables(versions, tables);
    r := LoadCatalog(versions, names, rows);
    if r.Success? {
      LoadCatalogKeys(versions, names, rows);
      if Distinct(versions) {
        LoadCatalogValues(versions, names, rows);
      }
    }
  }

  /** Every discovered version has a parameter and a datalabel catalog. */
  predicate Loaded(p: Parser) {
    && p.parameters.Keys == (set v | v in p.versions)
    && p.datalabels.Keys == (set v | v in p.versions)
  }

  /** No kept table name carries a version tag whose suffix `int` rejects. */
  predicate WellTagged(tables: seq<string>) {
    forall i :: 0 <= i < |tables| ==> Classify(tables[i]) != BadSuffix
  }

  /** The versions `find_versions` reports for well-tagged tables: one up to
      the highest version tag. */
  function DiscoveredVersions(tables: seq<string>): seq<nat> {
    UpTo(Top(Classified(tables)))
  }

  /** `parse`, `find_versions`, `find_parameters` and `find_datalabels` in
      turn, given the table names the extraction tool listed and the rows the
      store returns for each table name (none when the query fails). */
  method Load(listed: seq<string>, parameterRows: string -> Option<seq<Parameter>>,
              datalabelRows: string -> Option<seq<Datalabel>>) returns (r: Result<Parser>)
    // the state after a successful load
    ensures r.Success? ==> r.value.tables == DropTemporary(listed)
    ensures r.Success? ==> r.value.versions == DiscoveredVersions(r.value.tables)
    ensures r.Success? ==> CountsFromOne(r.value.versions)
    ensures r.Success? ==>
              forall i :: 0 <= i < |r.value.tables| && Classify(r.value.tables[i]).Version? ==>
                Classify(r.value.tables[i]).number <= |r.value.versions|
    ensures r.Success? && |r.value.versions| > 0 ==>
              exists i :: 0 <= i < |r.value.tables| &&
                Classify(r.value.tables[i]) == Version(|r.value.versions|)
    ensures r.Success? ==> Loaded(r.value)
    ensures r.Success? ==>
              forall i :: 0 <= i < |r.value.versions| ==>
                parameterRows(ParameterNames(r.value.versions, r.value.tables)[i])
                == Some(r.value.parameters[r.value.versions[i]])
    ensures r.Success? ==>
              forall i :: 0 <= i < |r.value.versions| ==>
                datalabelRows(DatalabelNames(r.value.versions, r.value.tables)[i])
                == Some(r.value.datalabels[r.value.versions[i]])
    // when it fails, and with which error
    ensures (r.Failure? && r.error.VersionNotAnInteger?) <==>
              exists i :: 0 <= i < |DropTemporary(listed)| && Classify(DropTemporary(listed)[i]) == BadSuffix
    ensures r.Failure? && r.error.VersionNotAnInteger? ==>
              NamesFirstBadSuffix(DropTemporary(listed), r.error)
    ensures WellTagged(DropTemporary(listed)) ==>
              var tables := DropTemporary(listed);
              var vs := DiscoveredVersions(tables);
              var ps := LoadCatalog(vs, ParameterNames(vs, tables), parameterRows);
              var ds := LoadCatalog(vs, DatalabelNames(vs, tables), datalabelRows);
              && (r.Success? <==> ps.Success? && ds.Success?)
              && (ps.Failure? ==> r == Failure(ps.error))
              && (ps.Success? && ds.Failure? ==> r == Failure(ds.error))
    ensures r.Failure? ==> r.error.VersionNotAnInteger? || r.error.QueryFailed?
  {
    var tables := DropTemporary(listed);
    var found := FindVersions(tables);
    if found.Failure? {
      return Failure(found.error);
    }
    var versions := found.value;
    CountsFromOneShape(versions);
    var _, parameters := FindParameters(versions, tables, parameterRows);
    if parameters.Failure? {
      return Failure(parameters.error);
    }
    var names, datalabels := FindDatalabels(versions, tables, datalabelRows);
    if datalabels.Failure? {
      return Failure(datalabels.error);
    }
    r := Success(Parser(tables, versions, parameters.value, datalabels.value));
  }

  // ---------------------------------------------------------------------------
  // Sensor descriptors

  /** The descriptor of one datalabel, as `get_ha_sensors` constructs it. */
  function SensorFor(l: Datalabel, ha: Tables): (r: Result<Sensor>)
    ensures r.Failure? ==> r.error == MultipleDeviceClassesFound
  {
    NewSensor(l.textGb, DeviceId + "_" + l.textGb, AvailabilityTopic,
              PayloadAvailable, PayloadNotAvailable, IthoStatusTopic,
              l.tooltipGb, l.unitGb, ha)
  }

  /** The English unit of `l` is present, non-empty, and its display form is
      registered by two different device classes. */
  ghost predicate AmbiguousUnit(l: Datalabel, ha: Tables) {
    Truthy(l.unitGb) && Ambiguous(FixUnit(l.unitGb.value).display, ha.units)
  }

  /** The descriptor of `l` fails exactly on an ambiguous unit. */
  lemma SensorForFails(l: Datalabel, ha: Tables)
    ensures SensorFor(l, ha).Failure? <==> AmbiguousUnit(l, ha)
  {
  }

  /** `s` is the descriptor of datalabel `l`: named by its English text, with
      the fixed identity and topics, a template keyed by its English tooltip
      and its unit after rewriting, publishing the display unit, with the one
      device class registering that display unit (none for a missing or
      empty unit) and that class's first state class. */
  ghost predicate Describes(s: Sensor, l: Datalabel, ha: Tables) {
    && s.name == l.textGb
    && s.uniqueId == DeviceId + "_" + l.textGb
    && s.stateTopic == IthoStatusTopic
    && s.availabilityTopic == AvailabilityTopic
    && s.payloadAvailable == PayloadAvailable
    && s.payloadNotAvailable == PayloadNotAvailable
    && Constructed(s, l.tooltipGb, l.unitGb, ha)
  }

  /** A constructed descriptor describes its datalabel. */
  lemma SensorForDescribes(l: Datalabel, ha: Tables)
    requires SensorFor(l, ha).Success?
    ensures Describes(SensorFor(l, ha).value, l, ha)
  {
  }

  /** The descriptors of `labels`, in order; the first datalabel whose unit is
      ambiguous aborts the whole list. */
  function SensorsFor(labels: seq<Datalabel>, ha: Tables): (r: Result<seq<Sensor>>)
    ensures r.Success? <==> forall i :: 0 <= i < |labels| ==> SensorFor(labels[i], ha).Success?
    ensures r.Success? ==> |r.value| == |labels|
    ensures r.Success? ==>
              forall i :: 0 <= i < |labels| ==> SensorFor(labels[i], ha) == Success(r.value[i])
    ensures r.Failure? ==> r.error == MultipleDeviceClassesFound
  {
    MapResults(labels, l => SensorFor(l, ha))
  }

  /** Every descriptor of a successful list describes its datalabel. */
  lemma SensorsDescribe(labels: seq<Datalabel>, ha: Tables)
    ensures SensorsFor(labels, ha).Success? ==>
              forall i :: 0 <= i < |labels| ==> Describes(SensorsFor(labels, ha).value[i], labels[i], ha)
  {
    if SensorsFor(labels, ha).Success? {
      forall i | 0 <= i < |labels| ensures Describes(SensorsFor(labels, ha).value[i], labels[i], ha) {
        SensorForDescribes(labels[i], ha);
      }
    }
  }

  /** A list of descriptors succeeds exactly when no datalabel's unit is
      ambiguous. */
  lemma SensorsForSucceed(labels: seq<Datalabel>, ha: Tables)
    ensures SensorsFor(labels, ha).Success? <==> forall i :: 0 <= i < |labels| ==> !AmbiguousUnit(labels[i], ha)
  {
    forall i | 0 <= i < |labels| ensures SensorFor(labels[i], ha).Success? <==> !AmbiguousUnit(labels[i], ha) {
      SensorForFails(labels[i], ha);
    }
  }

  /** `get_ha_sensors`: an unknown version is rejected; otherwise one
      descriptor per datalabel of that version, in order. */
  function GetHaSensors(p: Parser, version: int, ha: Tables): (r: Result<seq<Sensor>>)
    ensures version !in p.versions <==> r == Failure(FirmwareVersionNotFound(version))
    ensures version in p.versions && version in p.datalabels ==>
              (r.Success? <==> forall i :: 0 <= i < |p.datalabels[version]| ==>
                                 !AmbiguousUnit(p.datalabels[version][i], ha))
    ensures r.Success? ==>
              version in p.datalabels &&
              |r.value| == |p.datalabels[version]| &&
              forall i :: 0 <= i < |r.value| ==>
                SensorFor(p.datalabels[version][i], ha) == Success(r.value[i]) &&
                Describes(r.value[i], p.datalabels[version][i], ha)
    ensures r.Failure? && version in p.datalabels ==>
              r.error.FirmwareVersionNotFound? || r.error == MultipleDeviceClassesFound
  {
    if version !in p.versions then Failure(FirmwareVersionNotFound(version))
    else if version !in p.datalabels then Failure(CatalogNotLoaded(version))
    else
      var r := SensorsFor(p.datalabels[version], ha);
      SensorsForSucceed(p.datalabels[version], ha);
      if r.Success? then
        SensorsDescribe(p.datalabels[version], ha);
        r
      else r
  }

  /** After a successful load, every discovered version has its datalabels,
      so asking for a discovered version fails only on an ambiguous unit. */
  lemma LoadedVersionsHaveSensors(p: Parser, version: int, ha: Tables)
    requires Loaded(p)
    requires version in p.versions
    ensures GetHaSensors(p, version, ha).Success? ||
            GetHaSensors(p, version, ha) == Failure(MultipleDeviceClassesFound)
  {
    assert version in p.datalabels;
  }
}

=== FILE: results.dfy ===
/** Optional values, results and the error kinds raised by the parser and
    by the sensor descriptor synthesizer. */
module Results {

  /** Python's `X | None`. */
  datatype Option<+T> = None | Some(value: T) {

    /** The value, or `default` when there is none. */
    function GetOr(default: T): T {
      match this
      case Some(v) => v
      case None => default
    }
  }

  /** A computation that either returns a value or raises one of the errors below. */
  datatype Result<+R> = Success(value: R) | Failure(error: Error)

  /** Every exception the modelled code can raise. */
  datatype Error =
    /** `HAMQTTSensorError`: the display unit belongs to several device classes. */
    | MultipleDeviceClassesFound
    /** `IthoParserError`: descriptors were asked for a version never discovered. */
    | FirmwareVersionNotFound(version: int)
    /** `ValueError` from `int(...)`: a version-tagged table name whose text after
        the last `_V` is not an integer. */
    | VersionNotAnInteger(table: string)
    /** The relational store rejected the query on a resolved table name. */
    | QueryFailed(table: string)
    /** `KeyError`: a discovered version whose datalabels were never loaded. */
    | CatalogNotLoaded(version: int)

  /** Python truthiness of an optional string: present and non-empty. */
  predicate Truthy(s: Option<string>) {
    s.Some? && |s.value| > 0
  }

  /** Python's `str()` of an optional string, as an f-string renders it. */
  function Show(s: Option<string>): string {
    match s
    case Some(v) => v
    case None => "None"
  }

  /** Applies `f` to each element in turn; the first failure aborts the
      whole list, as an exception raised inside a Python loop does. */
  function MapResults<A, B>(xs: seq<A>, f: A -> Result<B>): (r: Result<seq<B>>)
    ensures r.Success? <==> forall i :: 0 <= i < |xs| ==> f(xs[i]).Success?
    ensures r.Success? ==> |r.value| == |xs|
    ensures r.Success? ==> forall i :: 0 <= i < |xs| ==> f(xs[i]) == Success(r.value[i])
    ensures r.Failure? ==>
              exists i :: 0 <= i < |xs| && f(xs[i]) == Failure(r.error) &&
                forall j :: 0 <= j < i ==> f(xs[j]).Success?
  {
    if |xs| == 0 then Success([])
    else
      match f(xs[0])
      case Failure(e) => Failure(e)
      case Success(y) =>
        assert forall i :: 0 < i < |xs| ==> xs[1..][i - 1] == xs[i];
        match MapResults(xs[1..], f)
        case Failure(e) =>
          assert exists i :: 0 <= i < |xs[1..]| && f(xs[1..][i]) == Failure(e) &&
                   forall j :: 0 <= j < i ==> f(xs[1..][j]).Success?;
          Failure(e)
        case Success(rest) => Success([y] + rest)
  }

  /** No element appears twice in `s`. */
  predicate Distinct<T(==)>(s: seq<T>) {
    forall i, j :: 0 <= i < j < |s| ==> s[i] != s[j]
  }
}

=== FILE: scenarios.dfy ===
/** Concrete cases of the behaviour the parser is known for: the unit
    rewrites as they show in the published descriptor, the ambiguity error,
    the state-class choice, and the quirks of table-name resolution. */
module Scenarios {
  import opened Results
  import opened HomeAssistant
  import opened Units
  import opened Sensors
  import opened TableNames
  import opened Catalog
  import opened Versions
  import opened IthoParser

  // ---------------------------------------------------------------------------
  // Units in the published descriptor

  /** "M3/h" is looked up and keyed as "m3/h" but published with the cubed glyph. */
  lemma VolumeFlowDatalabel(s: Sensor, l: Datalabel, ha: Tables)
    requires Describes(s, l, ha) && l.unitGb == Some("M3/h")
    ensures s.unit == Some("m3/h")
    ensures TemplateKey(s.valueTemplate) == Some(l.tooltipGb + " (m3/h)")
    ensures Lookup(ToDict(s), UnitKey) == Some(Text(CubicMetresPerHour))
  {
    FixUnitTable("M3/h");
    assert s.unit == Some("m3/h");
    assert PayloadKey(l.tooltipGb, s.unit) == l.tooltipGb + " (m3/h)";
  }

  /** The Dutch "uur" is keyed as "hour" and published as "h". */
  lemma HourDatalabel(s: Sensor, l: Datalabel, ha: Tables)
    requires Describes(s, l, ha) && l.unitGb == Some("uur")
    ensures TemplateKey(s.valueTemplate) == Some(l.tooltipGb + " (hour)")
    ensures Lookup(ToDict(s), UnitKey) == Some(Text("h"))
  {
    FixUnitTable("uur");
    assert s.unit == Some("hour");
    assert PayloadKey(l.tooltipGb, s.unit) == l.tooltipGb + " (hour)";
  }

  /** "-" stays in the template key but publishes no unit at all. */
  lemma DashDatalabel(s: Sensor, l: Datalabel, ha: Tables)
    requires Describes(s, l, ha) && l.unitGb == Some("-")
    ensures TemplateKey(s.valueTemplate) == Some(l.tooltipGb + " (-)")
    ensures Lookup(ToDict(s), UnitKey) == None
  {
    FixUnitTable("-");
    assert s.unit == Some("-");
    assert PayloadKey(l.tooltipGb, s.unit) == l.tooltipGb + " (-)";
  }

  /** A NULL unit is never rewritten or classified; the template renders it
      as "None", and no unit, device class or state class is published. */
  lemma MissingUnitDescriptor(s: Sensor, l: Datalabel, ha: Tables)
    requires Describes(s, l, ha) && l.unitGb == None
    ensures TemplateKey(s.valueTemplate) == Some(l.tooltipGb + " (None)")
    ensures Lookup(ToDict(s), UnitKey) == None
    ensures Lookup(ToDict(s), DeviceClassKey) == None
    ensures Lookup(ToDict(s), StateClassKey) == None
  {
    NoUnitNoClass(s, l, ha);
    assert PayloadKey(l.tooltipGb, s.unit) == l.tooltipGb + " (None)";
  }

  /** A descriptor of a datalabel without a unit has no unit, display unit,
      device class or state class. */
  lemma NoUnitNoClass(s: Sensor, l: Datalabel, ha: Tables)
    requires Describes(s, l, ha) && l.unitGb == None
    ensures s.unit == None && s.displayUnit == None
    ensures s.deviceClass.None? && s.stateClass.None?
  {
    assert !Truthy(l.unitGb);
  }

  /** A datalabel without a unit always gets a descriptor, and it is the one
      described above. */
  lemma MissingUnitDatalabel(l: Datalabel, ha: Tables)
    requires l.unitGb == None
    ensures SensorFor(l, ha).Success?
    ensures TemplateKey(SensorFor(l, ha).value.valueTemplate) == Some(l.tooltipGb + " (None)")
    ensures Lookup(ToDict(SensorFor(l, ha).value), UnitKey) == None
    ensures Lookup(ToDict(SensorFor(l, ha).value), DeviceClassKey) == None
    ensures Lookup(ToDict(SensorFor(l, ha).value), StateClassKey) == None
  {
    SensorForFails(l, ha);
    SensorForDescribes(l, ha);
    MissingUnitDescriptor(SensorFor(l, ha).value, l, ha);
  }

  // ---------------------------------------------------------------------------
  // Device and state classes

  /** Reference tables in which watts belong to both power classes and degrees
      Celsius to temperature only, whose first state class is "measurement". */
  function SampleTables(): Tables {
    Tables(
      c => if c == Power || c == ApparentPower then {Some("W")}
           else if c == Temperature then {Some("\U{00B0}C")}
           else {},
      c => if c == Temperature then [Measurement, Total] else [])
  }

  /** A unit registered under two classes is an error, not a choice. */
  lemma AmbiguousUnitRejected(l: Datalabel)
    requires l.unitGb == Some("W")
    ensures SensorFor(l, SampleTables()) == Failure(MultipleDeviceClassesFound)
  {
    var ha := SampleTables();
    assert Some("W") in ha.units(Power) && Some("W") in ha.units(ApparentPower);
  }

  /** A unit registered under one class gets that class and its first state class. */
  lemma TemperatureClassified(l: Datalabel)
    requires l.unitGb == Some("\U{00B0}C")
    ensures SensorFor(l, SampleTables()).Success?
    ensures SensorFor(l, SampleTables()).value.deviceClass == Some(Temperature)
    ensures SensorFor(l, SampleTables()).value.stateClass == Some(Measurement)
  {
    var ha := SampleTables();
    assert Some("\U{00B0}C") in ha.units(Temperature);
    assert forall c :: c != Temperature ==> Some("\U{00B0}C") !in ha.units(c);
  }

  // ---------------------------------------------------------------------------
  // Table names

  /** Only the parameter lookup falls back to the lower-case spelling, and it
      then uses the capitalised name. */
  lemma LowercaseFallbackAsymmetry()
    ensures ParameterTableFor(1, ["parameterlijst_V1"]) == Some("Parameterlijst_V1")
    ensures DatalabelTableFor(1, ["datalabel_V1"]) == None
  {
    assert DecimalString(1) == "1";
    assert "Parameterlijst_V1" != "parameterlijst_V1";
    assert ParameterTablePrefix + "1" == "Parameterlijst_V1";
    assert LowercaseParameterTablePrefix + "1" == "parameterlijst_V1";
    assert "Parameterlijst_V1" !in ["parameterlijst_V1"];
    assert DatalabelTablePrefix + "1" == "Datalabel_V1";
    assert "Datalabel_V1" !in ["datalabel_V1"];
  }

  /** A version without its own table reuses the previous version's table;
      a first version without one gets none, so its name stays empty. */
  lemma CarryOverExample()
    ensures LatestHit([1, 2], (v: nat) => DatalabelTableFor(v, ["Datalabel_V1"])) == Some("Datalabel_V1")
    ensures LatestHit([1], (v: nat) => DatalabelTableFor(v, ["Datalabel_V2"])) == None
  {
    assert DecimalString(1) == "1" && DecimalString(2) == "2";
    assert DatalabelTablePrefix + "1" == "Datalabel_V1";
    assert DatalabelTablePrefix + "2" == "Datalabel_V2";
    assert "Datalabel_V2" != "Datalabel_V1";
    assert [1, 2][..1] == [1];
  }

  /** When version 1 has no datalabel table, its name stays empty, and the
      query on the empty name fails: the catalog load stops right there. */
  lemma MissingFirstDatalabelTableFails(tables: seq<string>, rows: string -> Option<seq<Datalabel>>,
                                        n: nat)
    requires n >= 1 && "Datalabel_V1" !in tables
    ensures DatalabelNames(UpTo(n), tables)[0] == ""
    ensures LoadCatalog(UpTo(n), DatalabelNames(UpTo(n), tables), rows) == Failure(QueryFailed(""))
  {
    assert DecimalString(1) == "1";
    assert DatalabelTablePrefix + "1" == "Datalabel_V1";
    assert UpTo(n)[..1] == [1];
    var names := DatalabelNames(UpTo(n), tables);
    assert names[0] == LatestHit([1], (v: nat) => DatalabelTableFor(v, tables)).GetOr("");
    assert !Answers(rows, names[0]);
  }

  /** So a parameter file with a version tag numbered 1 or more but no
      datalabel table for version 1 never loads, even when the store holds rows for every table
      it lists. */
  method LoadWithoutFirstDatalabelTable(listed: seq<string>,
                                        parameterRows: string -> Option<seq<Parameter>>,
                                        datalabelRows: string -> Option<seq<Datalabel>>)
    returns (r: Result<Parser>)
    requires "Datalabel_V1" !in listed
    ensures Top(Classified(DropTemporary(listed))) >= 1 ==> r.Failure?
    ensures WellTagged(DropTemporary(listed)) && Top(Classified(DropTemporary(listed))) >= 1 ==>
              r.error.QueryFailed?
    ensures WellTagged(DropTemporary(listed)) && Top(Classified(DropTemporary(listed))) >= 1 &&
            LoadCatalog(DiscoveredVersions(DropTemporary(listed)),
                        ParameterNames(DiscoveredVersions(DropTemporary(listed)), DropTemporary(listed)),
                        parameterRows).Success? ==>
              r == Failure(QueryFailed(""))
  {
    var tables := DropTemporary(listed);
    if Top(Classified(tables)) >= 1 {
      DropTemporaryMembers(listed);
      MissingFirstDatalabelTableFails(tables, datalabelRows, Top(Classified(tables)));
    }
    r := Load(listed, parameterRows, datalabelRows);
  }

  /** A two-digit tag after "_V" is read as its number. */
  lemma TwoDigitTag()
    ensures Classify("Datalabel_V12") == Version(12)
  {
    assert DecimalString(12) == "12";
    assert DatalabelTablePrefix + "12" == "Datalabel_V12";
    TableNameRoundTrip(DatalabelTablePrefix, 12);
  }

  /** `$` accepts one final line break, and `int` ignores it. This states the
      regex and `int` semantics only: the loader takes its names from
      `split("\n")` of the stripped tool output (itho_parser.py line 310), so
      no listed name ends in a line break and the case never arises there. */
  lemma TagBeforeLineBreak()
    ensures Classify("Datalabel_V3\n") == Version(3)
  {
    var t := "Datalabel_V3\n";
    var b := "Datalabel_V3";
    assert WithoutFinalNewline(t) == b;
    assert b[..|b| - 2] == "Datalabel_";
    assert EndsWithTag(b, 1);
    assert IsMarkerAt(t, 9);
    assert LastMarker(t, |t|) == Some(9);
    assert t[11..] == "3\n";
    assert WithoutFinalNewline("3\n") == "3";
  }

  /** A tag without "_" before its "V" matches the expression, but `int`
      then gets the whole name and raises. */
  lemma TagWithoutUnderscore()
    ensures Classify("DatalabelV3") == BadSuffix
  {
    var u := "DatalabelV3";
    assert u[..|u| - 2] == "Datalabel";
    assert EndsWithTag(u, 1);
    assert forall k: nat :: k + 2 <= |u| ==> !IsMarkerAt(u, k);
    assert LastMarker(u, |u|) == None;
    assert !IsAsciiDigit(u[0]);
  }

  /** Three digits, or nothing before the "V", do not match the expression. */
  lemma NotTagged()
    ensures Classify("Datalabel_V123") == Untagged
    ensures Classify("V1") == Untagged
  {
    var w := "Datalabel_V123";
    assert w[|w| - 2] == '2' && w[|w| - 3] == '1';
  }

  /** A zero-padded tag is read without its zero: "Datalabel_V05" is
      version 5. */
  lemma ZeroPaddedTag()
    ensures Classify("Datalabel_V05") == Version(5)
  {
    var t := "Datalabel_V05";
    assert EndsWithTag(t, 2);
    assert IsMarkerAt(t, 9);
    assert LastMarker(t, |t|) == Some(9);
    assert t[11..] == "05" && "05"[1..] == "5";
    LeadingZeroIgnored("05");
    assert DigitsValue("5") == 5;
  }

  /** A zero-padded tag counts as its number, but the loader then looks for
      the unpadded name and does not find the table. */
  lemma ZeroPaddedTagNotResolved()
    ensures Classify("Datalabel_V01") == Version(1)
    ensures DatalabelTableFor(1, ["Datalabel_V01"]) == None
  {
    var t := "Datalabel_V01";
    assert EndsWithTag(t, 2);
    assert IsMarkerAt(t, 9);
    assert LastMarker(t, |t|) == Some(9);
    assert t[11..] == "01";
    assert DigitsValue("01") == DigitsValue("0") * 10 + 1;
    assert DecimalString(1) == "1";
    assert DatalabelTablePrefix + "1" == "Datalabel_V1";
    assert "Datalabel_V1" != "Datalabel_V01";
  }
}

=== FILE: sensors.dfy ===
/** `HAMQTTSensor`: the sensor discovery descriptor built from one datalabel,
    with its device-class inference, state-class selection, value template
    and ordered mapping form (`to_dict`). */
module Sensors {
  import opened Results
  import opened HomeAssistant
  import opened Units

  /** The state of a constructed `HAMQTTSensor`. `unit` is the lookup unit
      (`unit_of_measurement`), `displayUnit` the published one
      (`fixed_unit_of_measurement`). */
  datatype Sensor = Sensor(
    name: string,
    uniqueId: string,
    availabilityTopic: string,
    payloadAvailable: string,
    payloadNotAvailable: string,
    stateTopic: string,
    valueTemplate: string,
    deviceClass: Option<DeviceClass>,
    stateClass: Option<StateClass>,
    unit: Option<string>,
    displayUnit: Option<string>)

  // ---------------------------------------------------------------------------
  // Device-class inference

  /** The classes of `classes`, in order, whose registered units contain `display`. */
  function Matching(classes: seq<DeviceClass>, display: Option<string>,
                    units: DeviceClass -> set<Option<string>>): (r: seq<DeviceClass>)
    ensures forall c :: c in r <==> c in classes && display in units(c)
    ensures Distinct(classes) ==> Distinct(r)
    ensures |r| <= |classes|
  {
    if |classes| == 0 then []
    else
      var rest := Matching(classes[1..], display, units);
      if display in units(classes[0]) then
        assert Distinct(classes) ==> classes[0] !in classes[1..];
        [classes[0]] + rest
      else rest
  }

  /** Two different classes both register `display`. */
  ghost predicate Ambiguous(display: Option<string>, units: DeviceClass -> set<Option<string>>) {
    exists c1, c2 :: c1 != c2 && display in units(c1) && display in units(c2)
  }

  /** `__find_device_class`: the one class of `DEVICE_CLASSES` that registers
      the display unit, no class when none does, an error when several do. */
  function FindDeviceClass(display: Option<string>, units: DeviceClass -> set<Option<string>>)
    : (r: Result<Option<DeviceClass>>)
    ensures r == Success(None) <==> forall c: DeviceClass :: display !in units(c)
    ensures r.Success? && r.value.Some? ==>
              display in units(r.value.value) &&
              forall c: DeviceClass :: c != r.value.value ==> display !in units(c)
    ensures r.Failure? <==> Ambiguous(display, units)
    ensures r.Failure? ==> r.error == MultipleDeviceClassesFound
  {
    var found := Matching(DeviceClasses, display, units);
    DeviceClassesComplete();
    MatchingCount(DeviceClasses, display, units);
    if |found| == 0 then Success(None)
    else if |found| == 1 then Success(Some(found[0]))
    else Failure(MultipleDeviceClassesFound)
  }

  /** Over a list holding every class once, the number of matching classes
      tells whether none, exactly one, or several of all classes register
      `display`. */
  lemma MatchingCount(classes: seq<DeviceClass>, display: Option<string>,
                      units: DeviceClass -> set<Option<string>>)
    requires Distinct(classes) && forall c: DeviceClass :: c in classes
    ensures var found := Matching(classes, display, units);
              && (|found| == 0 <==> forall c: DeviceClass :: display !in units(c))
              && (|found| == 1 ==>
                    display in units(found[0]) &&
                    forall c: DeviceClass :: c != found[0] ==> display !in units(c))
              && (|found| >= 2 <==> Ambiguous(display, units))
  {
    var found := Matching(classes, display, units);
    if |found| == 1 {
      assert found[0] in found;
      assert forall c :: c in found ==> c == found[0];
    } else if |found| >= 2 {
      assert found[0] in found && found[1] in found && found[0] != found[1];
    } else {
      assert forall c :: c !in found;
    }
  }

  // ---------------------------------------------------------------------------
  // Value template

  /** The fixed text around the payload key of a value template. */
  const TemplateOpen: string := "{{ value_json[\""
  const TemplateClose: string := "\"] }}"

  /** The key under which the telemetry payload carries a value: its label
      followed by its unit in parentheses. */
  function PayloadKey(value: string, unit: Option<string>): string {
    value + " (" + Show(unit) + ")"
  }

  /** The template expression extracting one field of the telemetry payload;
      reading its key back gives exactly the payload key it was built from. */
  function ValueTemplate(value: string, unit: Option<string>): (r: string)
    ensures TemplateKey(r) == Some(PayloadKey(value, unit))
  {
    var k := PayloadKey(value, unit);
    var t := TemplateOpen + k + TemplateClose;
    assert t[..|TemplateOpen|] == TemplateOpen;
    assert t[|t| - |TemplateClose|..] == TemplateClose;
    assert t[|TemplateOpen|..|t| - |TemplateClose|] == k;
    t
  }

  /** Reads the payload key back out of a template expression. */
  function TemplateKey(t: string): (r: Option<string>)
    ensures r.Some? ==> t == TemplateOpen + r.value + TemplateClose
  {
    if |t| >= |TemplateOpen| + |TemplateClose|
       && t[..|TemplateOpen|] == TemplateOpen
       && t[|t| - |TemplateClose|..] == TemplateClose
    then
      var key := t[|TemplateOpen|..|t| - |TemplateClose|];
      assert t == t[..|TemplateOpen|] + key + t[|t| - |TemplateClose|..];
      Some(key)
    else None
  }

  /** Different payload keys give different templates. */
  lemma TemplateInjective(v1: string, u1: Option<string>, v2: string, u2: Option<string>)
    requires ValueTemplate(v1, u1) == ValueTemplate(v2, u2)
    ensures PayloadKey(v1, u1) == PayloadKey(v2, u2)
  {
    assert TemplateKey(ValueTemplate(v1, u1)) == Some(PayloadKey(v1, u1));
  }

  // ---------------------------------------------------------------------------
  // Construction

  /** What `__init__` derives from a label's tooltip `value`, its raw `unit`
      and the Home Assistant tables, stated once for `NewSensor` and its
      callers: the units are rewritten when present and non-empty and left
      alone otherwise; the device class is the unique class registering the
      display unit; the state class follows the device class; and the value
      template is keyed by the tooltip and the unit after rewriting. */
  ghost predicate Constructed(s: Sensor, value: string, unit: Option<string>, ha: Tables) {
    && (Truthy(unit) ==>
          s.unit == Some(FixUnit(unit.value).unit) && s.displayUnit == FixUnit(unit.value).display)
    && (!Truthy(unit) ==> s.unit == unit && s.displayUnit.None? && s.deviceClass.None?)
    && (s.deviceClass.Some? ==>
          s.displayUnit in ha.units(s.deviceClass.value) &&
          forall c: DeviceClass :: c != s.deviceClass.value ==> s.displayUnit !in ha.units(c))
    && (Truthy(unit) && s.deviceClass.None? ==>
          forall c: DeviceClass :: s.displayUnit !in ha.units(c))
    && (s.stateClass.Some? <==>
          s.deviceClass.Some? && |ha.stateClasses(s.deviceClass.value)| > 0)
    && (s.stateClass.Some? ==> s.stateClass.value == ha.stateClasses(s.deviceClass.value)[0])
    && TemplateKey(s.valueTemplate) == Some(PayloadKey(value, s.unit))
  }

  /** `HAMQTTSensor.__init__`. A non-empty unit is rewritten and its display
      form classified; the state class is the first one the class registers;
      the template keys the payload by the label and the rewritten unit. */
  function NewSensor(name: string, uniqueId: string, availabilityTopic: string,
                     payloadAvailable: string, payloadNotAvailable: string,
                     stateTopic: string, value: string, unit: Option<string>,
                     ha: Tables): (r: Result<Sensor>)
    ensures r.Failure? <==> Truthy(unit) && Ambiguous(FixUnit(unit.value).display, ha.units)
    ensures r.Failure? ==> r.error == MultipleDeviceClassesFound
    ensures r.Success? ==>
              && r.value.name == name
              && r.value.uniqueId == uniqueId
              && r.value.availabilityTopic == availabilityTopic
              && r.value.payloadAvailable == payloadAvailable
              && r.value.payloadNotAvailable == payloadNotAvailable
              && r.value.stateTopic == stateTopic
    ensures r.Success? ==> Constructed(r.value, value, unit, ha)
  {
    var (u, display, found) :=
      if Truthy(unit) then
        var fix := FixUnit(unit.value);
        (Some(fix.unit), fix.display, FindDeviceClass(fix.display, ha.units))
      else (unit, None, Success(None));
    match found
    case Failure(e) => Failure(e)
    case Success(deviceClass) =>
      var stateClass :=
        if deviceClass.Some? && |ha.stateClasses(deviceClass.value)| > 0
        then Some(ha.stateClasses(deviceClass.value)[0]) else None;
      Success(Sensor(name, uniqueId, availabilityTopic, payloadAvailable, payloadNotAvailable,
                     stateTopic, ValueTemplate(value, u), deviceClass, stateClass, u, display))
  }

  // ---------------------------------------------------------------------------
  // Mapping form

  /** A value of the descriptor mapping. `Availability(t)` stands for the
      one-element list `[{"topic": t}]`. */
  datatype Field =
    | Text(text: string)
    | DeviceClassField(deviceClass: DeviceClass)
    | StateClassField(stateClass: StateClass)
    | Availability(topic: string)

  /** The keys of the published mapping, in the order `to_dict` writes them. */
  datatype Key =
    | NameKey
    | UniqueIdKey
    | StateTopicKey
    | ValueTemplateKey
    | UnitKey
    | DeviceClassKey
    | StateClassKey
    | AvailabilityKey
    | PayloadAvailableKey
    | PayloadNotAvailableKey

  /** The JSON name of each key. */
  function KeyName(k: Key): string {
    match k
    case NameKey => "name"
    case UniqueIdKey => "unique_id"
    case StateTopicKey => "state_topic"
    case ValueTemplateKey => "value_template"
    case UnitKey => "unit_of_measurement"
    case DeviceClassKey => "device_class"
    case StateClassKey => "state_class"
    case AvailabilityKey => "availability"
    case PayloadAvailableKey => "payload_available"
    case PayloadNotAvailableKey => "payload_not_available"
  }

  /** Position of a key in the descriptor's fixed key order. */
  function Rank(k: Key): (r: nat)
    ensures r < 10
  {
    match k
    case NameKey => 0
    case UniqueIdKey => 1
    case StateTopicKey => 2
    case ValueTemplateKey => 3
    case UnitKey => 4
    case DeviceClassKey => 5
    case StateClassKey => 6
    case AvailabilityKey => 7
    case PayloadAvailableKey => 8
    case PayloadNotAvailableKey => 9
  }

  /** The key at position `i` of the fixed key order. */
  function KeyAt(i: nat): (k: Key)
    requires i < 10
    ensures Rank(k) == i
  {
    if i == 0 then NameKey
    else if i == 1 then UniqueIdKey
    else if i == 2 then StateTopicKey
    else if i == 3 then ValueTemplateKey
    else if i == 4 then UnitKey
    else if i == 5 then DeviceClassKey
    else if i == 6 then StateClassKey
    else if i == 7 then AvailabilityKey
    else if i == 8 then PayloadAvailableKey
    else PayloadNotAvailableKey
  }

  /** Distinct keys have distinct JSON names, so the published mapping never
      writes one name twice. */
  lemma KeyNamesDistinct(k1: Key, k2: Key)
    requires k1 != k2
    ensures KeyName(k1) != KeyName(k2)
  {
    if |KeyName(k1)| == |KeyName(k2)| {
      match k1
      case StateTopicKey => assert KeyName(k1)[6] != KeyName(k2)[6];
      case StateClassKey => assert KeyName(k1)[6] != KeyName(k2)[6];
      case DeviceClassKey => assert KeyName(k1)[0] != KeyName(k2)[0];
      case AvailabilityKey => assert KeyName(k1)[0] != KeyName(k2)[0];
      case _ =>
    }
  }

  /** Python's insertion-ordered `dict`: the keys in insertion order and the
      value of each. */
  datatype Dict = Dict(keys: seq<Key>, values: map<Key, Field>)

  const EmptyDict: Dict := Dict([], map[])

  /** The key order lists exactly the stored keys, each once. */
  predicate Valid(d: Dict) {
    && (forall k :: k in d.keys <==> k in d.values)
    && Distinct(d.keys)
  }

  /** The value stored under `k`, if any. */
  function Lookup(d: Dict, k: Key): Option<Field> {
    if k in d.values then Some(d.values[k]) else None
  }

  /** `d[k] = f`: a present key keeps its place and takes the new value; a
      new key goes last. */
  function Put(d: Dict, k: Key, f: Field): (r: Dict)
    ensures Lookup(r, k) == Some(f)
    ensures forall k2 :: k2 != k ==> Lookup(r, k2) == Lookup(d, k2)
    ensures Lookup(d, k).None? ==> r.keys == d.keys + [k]
    ensures Lookup(d, k).Some? ==> r.keys == d.keys
  {
    Dict(if k in d.values then d.keys else d.keys + [k], d.values[k := f])
  }

  /** Assignment keeps the key order in step with the stored keys. */
  lemma PutValid(d: Dict, k: Key, f: Field)
    requires Valid(d)
    ensures Valid(Put(d, k, f))
  {
    var r := Put(d, k, f);
    if k !in d.values {
      forall i, j | 0 <= i < j < |r.keys| ensures r.keys[i] != r.keys[j] {
        if j == |d.keys| {
          assert r.keys[i] == d.keys[i];
          assert d.keys[i] in d.keys;
        }
      }
    }
  }

  /** Keys appear in strictly increasing rank, hence at most once. */
  predicate Ranked(d: Dict) {
    forall i, j :: 0 <= i < j < |d.keys| ==> Rank(d.keys[i]) < Rank(d.keys[j])
  }

  /** `d` is ranked and every key in it comes before rank `n`. */
  predicate RankedBelow(d: Dict, n: nat) {
    Ranked(d) && forall i :: 0 <= i < |d.keys| ==> Rank(d.keys[i]) < n
  }

  /** Assigning a new key later in the order than every present key keeps
      the mapping ranked. */
  lemma PutInOrder(d: Dict, k: Key, f: Field)
    requires Lookup(d, k).None? && RankedBelow(d, Rank(k))
    ensures RankedBelow(Put(d, k, f), Rank(k) + 1)
  {
  }

  /** `if v: d[k] = v`. */
  function PutSome(d: Dict, k: Key, v: Option<Field>): (r: Dict)
    ensures Lookup(r, k) == (if v.Some? then v else Lookup(d, k))
    ensures forall k2 :: k2 != k ==> Lookup(r, k2) == Lookup(d, k2)
  {
    if v.Some? then Put(d, k, v.value) else d
  }

  /** What the descriptor publishes under each key: the unit entry carries the
      display unit, so "-" (whose display unit is unset) publishes none; the
      unit, device class and state class entries are absent when unset. */
  function Published(s: Sensor, k: Key): Option<Field> {
    match k
    case NameKey => Some(Text(s.name))
    case UniqueIdKey => Some(Text(s.uniqueId))
    case StateTopicKey => Some(Text(s.stateTopic))
    case ValueTemplateKey => Some(Text(s.valueTemplate))
    case UnitKey => if Truthy(s.displayUnit) then Some(Text(s.displayUnit.value)) else None
    case DeviceClassKey => if s.deviceClass.Some? then Some(DeviceClassField(s.deviceClass.value)) else None
    case StateClassKey => if s.stateClass.Some? then Some(StateClassField(s.stateClass.value)) else None
    case AvailabilityKey => Some(Availability(s.availabilityTopic))
    case PayloadAvailableKey => Some(Text(s.payloadAvailable))
    case PayloadNotAvailableKey => Some(Text(s.payloadNotAvailable))
  }

  /** The assignments of `to_dict` from position `i` of the key order on. */
  function PutFrom(s: Sensor, d: Dict, i: nat): Dict
    requires i <= 10
    decreases 10 - i
  {
    if i == 10 then d
    else PutFrom(s, PutSome(d, KeyAt(i), Published(s, KeyAt(i))), i + 1)
  }

  /** `to_dict`: each key assigned in the fixed order, the unit, device class
      and state class only when they are set. */
  function ToDict(s: Sensor): (r: Dict)
    ensures Valid(r) && Ranked(r)
    ensures forall k :: Lookup(r, k) == Published(s, k)
  {
    PutFromValid(s, EmptyDict, 0);
    PutFromFacts(s, EmptyDict, 0);
    PutFrom(s, EmptyDict, 0)
  }

  /** The assignments from position `i` on keep the mapping ranked, set every
      later key to its published value and leave earlier keys alone. */
  lemma {:induction false} PutFromFacts(s: Sensor, d: Dict, i: nat)
    requires i <= 10
    requires RankedBelow(d, i) && forall k :: Lookup(d, k).Some? ==> Rank(k) < i
    ensures Ranked(PutFrom(s, d, i))
    ensures forall k :: Lookup(PutFrom(s, d, i), k) ==
                        if Rank(k) < i then Lookup(d, k) else Published(s, k)
    decreases 10 - i
  {
    if i < 10 {
      var k := KeyAt(i);
      var d' := PutSome(d, k, Published(s, k));
      if Published(s, k).Some? {
        PutInOrder(d, k, Published(s, k).value);
      }
      assert forall k2 :: Lookup(d', k2).Some? ==> Rank(k2) < i + 1;
      PutFromFacts(s, d', i + 1);
      forall k2 ensures Rank(k2) == i ==> k2 == k {
        if Rank(k2) == i {
          KeyAtRank(k2);
        }
      }
    }
  }

  /** The assignments keep the key order in step with the stored keys. */
  lemma {:induction false} PutFromValid(s: Sensor, d: Dict, i: nat)
    requires i <= 10 && Valid(d)
    ensures Valid(PutFrom(s, d, i))
    decreases 10 - i
  {
    if i < 10 {
      var k := KeyAt(i);
      if Published(s, k).Some? {
        PutValid(d, k, Published(s, k).value);
      }
      PutFromValid(s, PutSome(d, k, Published(s, k)), i + 1);
    }
  }

  /** Position and key determine each other. */
  lemma KeyAtRank(k: Key)
    ensures KeyAt(Rank(k)) == k
  {
  }
}

=== FILE: table_names.dfy ===
/** Table names of the extracted database: the temporary-table filter of
    `IthoParser.parse`, the version tag recognised by `find_versions`
    (`re.match(".+V[0-9]{1,2}$", name)` and `int(name.split("_V")[-1])`),
    and the decimal rendering used to build per-version table names. */
module TableNames {
  import opened Results

  // ---------------------------------------------------------------------------
  // Temporary tables

  /** Names starting with "~" are the extraction tool's temporary tables. */
  predicate IsTemporary(t: string) {
    |t| > 0 && t[0] == '~'
  }

  /** The table list kept by `parse`: temporary tables dropped, order kept. */
  function DropTemporary(tables: seq<string>): (r: seq<string>)
    ensures forall i :: 0 <= i < |r| ==> !IsTemporary(r[i])
    ensures |r| <= |tables|
  {
    if |tables| == 0 then []
    else Keep(tables[0]) + DropTemporary(tables[1..])
  }

  /** The part of the kept list one name contributes. */
  function Keep(t: string): (r: seq<string>)
    ensures r == [] <==> IsTemporary(t)
    ensures r != [] ==> r == [t]
  {
    if IsTemporary(t) then [] else [t]
  }

  /** A name is kept exactly when it is listed and not temporary. */
  lemma {:induction false} DropTemporaryMembers(tables: seq<string>)
    ensures forall t :: t in DropTemporary(tables) <==> t in tables && !IsTemporary(t)
  {
    if |tables| > 0 {
      DropTemporaryMembers(tables[1..]);
      assert tables == [tables[0]] + tables[1..];
    }
  }

  /** The filter works name by name: it distributes over concatenation, so the
      survivors keep their relative order. */
  lemma {:induction false} DropTemporaryConcat(a: seq<string>, b: seq<string>)
    ensures DropTemporary(a + b) == DropTemporary(a) + DropTemporary(b)
  {
    if |a| > 0 {
      var ab := a + b;
      assert ab[0] == a[0];
      assert ab[1..] == a[1..] + b;
      DropTemporaryConcat(a[1..], b);
      assert DropTemporary(ab) == Keep(a[0]) + (DropTemporary(a[1..]) + DropTemporary(b));
      assert DropTemporary(a) == Keep(a[0]) + DropTemporary(a[1..]);
    } else {
      assert a + b == b;
    }
  }

  /** Filtering an already filtered list changes nothing. */
  lemma {:induction false} DropTemporaryIdempotent(tables: seq<string>)
    ensures DropTemporary(DropTemporary(tables)) == DropTemporary(tables)
  {
    if |tables| > 0 {
      var rest := DropTemporary(tables[1..]);
      DropTemporaryIdempotent(tables[1..]);
      DropTemporaryConcat(Keep(tables[0]), rest);
      assert DropTemporary(Keep(tables[0])) == Keep(tables[0]) by {
        if !IsTemporary(tables[0]) {
          assert DropTemporary([tables[0]]) == Keep(tables[0]) + DropTemporary([]);
        }
      }
    }
  }

  // ---------------------------------------------------------------------------
  // The version tag `.+V[0-9]{1,2}$`

  predicate IsAsciiDigit(c: char) {
    '0' <= c <= '9'
  }

  predicate AllDigits(s: string) {
    forall i :: 0 <= i < |s| ==> IsAsciiDigit(s[i])
  }

  /** Python's `$` also matches just before one final line break. */
  function WithoutFinalNewline(t: string): string {
    if |t| > 0 && t[|t| - 1] == '\n' then t[..|t| - 1] else t
  }

  /** `b` ends in "V" and `k` digits, after a non-empty prefix without line
      breaks (what `.+` accepts). */
  predicate EndsWithTag(b: string, k: nat) {
    && |b| >= k + 2
    && b[|b| - k - 1] == 'V'
    && AllDigits(b[|b| - k..])
    && '\n' !in b[..|b| - k - 1]
  }

  /** `re.match(".+V[0-9]{1,2}$", t)` succeeds. */
  predicate VersionTagged(t: string) {
    var b := WithoutFinalNewline(t);
    EndsWithTag(b, 1) || EndsWithTag(b, 2)
  }

  // ---------------------------------------------------------------------------
  // The text after the last "_V"

  /** "_V" starts at position `k` of `t`. Two occurrences never overlap, so
      `split("_V")` cuts at every one of them. */
  predicate IsMarkerAt(t: string, k: nat) {
    k + 2 <= |t| && t[k] == '_' && t[k + 1] == 'V'
  }

  /** The last "_V" lying wholly within `t[..end]`. */
  function LastMarker(t: string, end: nat): (r: Option<nat>)
    requires end <= |t|
    ensures r.Some? ==> r.value + 2 <= end && IsMarkerAt(t, r.value)
    ensures r.Some? ==> forall k: nat :: r.value < k && k + 2 <= end ==> !IsMarkerAt(t, k)
    ensures r.None? ==> forall k: nat :: k + 2 <= end ==> !IsMarkerAt(t, k)
  {
    if end < 2 then None
    else if IsMarkerAt(t, end - 2) then Some(end - 2)
    else LastMarker(t, end - 1)
  }

  /** `t.split("_V")[-1]`: the text after the last "_V", or all of `t`. It is
      a suffix of `t` holding no "_V", and it is either all of `t` or comes
      right after a "_V". */
  function LastPiece(t: string): (r: string)
    ensures |r| <= |t| && r == t[|t| - |r|..]
    ensures forall j: nat :: j + 2 <= |r| ==> !IsMarkerAt(r, j)
    ensures |r| < |t| ==> |r| + 2 <= |t| && IsMarkerAt(t, |t| - |r| - 2)
  {
    match LastMarker(t, |t|)
    case None => t
    case Some(k) =>
      var r := t[k + 2..];
      assert forall j: nat :: j + 2 <= |r| ==> IsMarkerAt(r, j) == IsMarkerAt(t, k + 2 + j);
      r
  }

  /** Those three properties single out the last piece: no other suffix has
      them all. */
  lemma LastPieceUnique(t: string, p: string)
    requires |p| <= |t| && p == t[|t| - |p|..]
    requires forall j: nat :: j + 2 <= |p| ==> !IsMarkerAt(p, j)
    requires |p| < |t| ==> |p| + 2 <= |t| && IsMarkerAt(t, |t| - |p| - 2)
    ensures p == LastPiece(t)
  {
    var r := LastPiece(t);
    // the "_V" right before the last piece would lie inside a longer `p`
    if |r| + 2 <= |p| {
      assert IsMarkerAt(p, |p| - |r| - 2);
    }
  }

  // ---------------------------------------------------------------------------
  // Decimal numbers

  /** The value of a string of decimal digits. */
  function DigitsValue(d: string): nat
    requires AllDigits(d)
  {
    if |d| == 0 then 0
    else DigitsValue(d[..|d| - 1]) * 10 + (d[|d| - 1] as int - '0' as int)
  }

  /** `int(s)` on the suffixes `find_versions` passes it (see `SuffixShape`):
      digits, possibly followed by one line break (which `int` strips), are
      read; anything else raises. A number read from digits without a leading
      zero renders back to those digits. */
  function ParseVersion(s: string): (r: Option<nat>)
    ensures var d := WithoutFinalNewline(s); |d| > 0 && AllDigits(d) ==> r.Some?
    ensures var d := WithoutFinalNewline(s);
              r.Some? ==> |d| > 0 && AllDigits(d) && (d[0] != '0' || |d| == 1 ==> DecimalString(r.value) == d)
  {
    var d := WithoutFinalNewline(s);
    if |d| > 0 && AllDigits(d) then
      RenderDigits(d);
      Some(DigitsValue(d))
    else None
  }

  function DigitChar(n: nat): char
    requires n < 10
  {
    ('0' as int + n) as char
  }

  /** `str(n)`: decimal digits without leading zeros. */
  function DecimalString(n: nat): (r: string)
    ensures |r| > 0 && AllDigits(r)
    ensures |r| == 1 <==> n < 10
    ensures n < 100 ==> |r| <= 2
    ensures n >= 10 ==> r[0] != '0'
  {
    if n < 10 then [DigitChar(n)] else DecimalString(n / 10) + [DigitChar(n % 10)]
  }

  /** Reading back a rendered number gives the number. */
  lemma {:induction false} DecimalRoundTrip(n: nat)
    ensures DigitsValue(DecimalString(n)) == n
  {
    if n >= 10 {
      DecimalRoundTrip(n / 10);
      var r := DecimalString(n);
      assert r[..|r| - 1] == DecimalString(n / 10);
    }
  }

  /** Digits without a leading zero are worth at least one. */
  lemma {:induction false} LeadingDigitPositive(d: string)
    requires |d| > 0 && AllDigits(d) && d[0] != '0'
    ensures DigitsValue(d) >= 1
  {
    if |d| > 1 {
      LeadingDigitPositive(d[..|d| - 1]);
    }
  }

  /** Rendering the value of digits without a leading zero gives them back. */
  lemma {:induction false} RenderDigits(d: string)
    requires |d| > 0 && AllDigits(d)
    ensures d[0] != '0' || |d| == 1 ==> DecimalString(DigitsValue(d)) == d
  {
    if |d| > 1 && d[0] != '0' {
      var p := d[..|d| - 1];
      RenderDigits(p);
      LeadingDigitPositive(p);
      var n := DigitsValue(d);
      assert n / 10 == DigitsValue(p) && n % 10 == d[|d| - 1] as int - '0' as int;
      assert d == p + [d[|d| - 1]];
    }
  }

  /** A leading zero adds nothing to the value of digits. */
  lemma {:induction false} LeadingZeroValue(d: string)
    requires |d| >= 1 && AllDigits(d) && d[0] == '0'
    ensures DigitsValue(d) == DigitsValue(d[1..])
    decreases |d|
  {
    if |d| > 1 {
      var p := d[..|d| - 1];
      LeadingZeroValue(p);
      assert p[1..] == d[1..][..|d[1..]| - 1];
    }
  }

  /** `int` ignores leading zeros: "05" reads as 5, like "5". */
  lemma LeadingZeroIgnored(d: string)
    requires |d| >= 2 && AllDigits(d) && d[0] == '0'
    ensures ParseVersion(d) == ParseVersion(d[1..])
  {
    LeadingZeroValue(d);
    assert WithoutFinalNewline(d) == d && WithoutFinalNewline(d[1..]) == d[1..];
  }

  /** `int` reads back what `str` renders, with or without a final line break. */
  lemma ParseVersionRoundTrip(n: nat)
    ensures ParseVersion(DecimalString(n)) == Some(n)
    ensures ParseVersion(DecimalString(n) + "\n") == Some(n)
  {
    DecimalRoundTrip(n);
    var d := DecimalString(n);
    assert (d + "\n")[..|d|] == d;
  }

  // ---------------------------------------------------------------------------
  // Classification of one table name

  datatype TagParse = Untagged | BadSuffix | Version(number: nat)

  /** What `find_versions` makes of one table name: not version-tagged, tagged
      with a suffix `int` rejects, or tagged with a version number. */
  function Classify(t: string): (r: TagParse)
    ensures r.Version? ==> r.number < 100
  {
    if !VersionTagged(t) then Untagged
    else
      SuffixShape(t);
      match ParseVersion(LastPiece(t))
      case None => BadSuffix
      case Some(n) => Version(n)
  }

  /** For a tagged name, the text after the last "_V" is either the one or two
      tag digits (with the line break `$` allowed) or contains the tag's "V",
      which `int` never accepts; so modelling `int` on digits alone is exact
      here. The tag digits are read back when "_" precedes the tag's "V". */
  lemma SuffixShape(t: string)
    requires VersionTagged(t)
    ensures ParseVersion(LastPiece(t)).Some? || 'V' in LastPiece(t)
    ensures ParseVersion(LastPiece(t)).Some? ==> ParseVersion(LastPiece(t)).value < 100
  {
    var v := TagPosition(t);
    if v >= 1 && t[v - 1] == '_' {
      SuffixAfterUnderscore(t, v);
    } else {
      SuffixKeepsTag(t, v);
      LetterNeverParses(LastPiece(t));
    }
  }

  /** `int` rejects any text holding a "V". */
  lemma LetterNeverParses(p: string)
    requires 'V' in p
    ensures ParseVersion(p).None?
  {
    var i :| 0 <= i < |p| && p[i] == 'V';
    var d := WithoutFinalNewline(p);
    assert i < |d| && d[i] == 'V';  // the "V" is not the final line break
  }

  /** Where the tag's "V" sits: followed by one or two digits and, at most,
      the final line break. */
  lemma TagPosition(t: string) returns (v: nat)
    requires VersionTagged(t)
    ensures v < |t| && t[v] == 'V'
    ensures var b := WithoutFinalNewline(t);
              1 <= |b| - v - 1 <= 2 && b == t[..|b|] && t[v + 1..|b|] == b[|b| - (|b| - v - 1)..]
    ensures forall i :: v < i < |WithoutFinalNewline(t)| ==> IsAsciiDigit(t[i])
    ensures forall i :: |WithoutFinalNewline(t)| <= i < |t| ==> t[i] == '\n'
    ensures AllDigits(t[v + 1..|WithoutFinalNewline(t)|])
  {
    var b := WithoutFinalNewline(t);
    var k: nat := if EndsWithTag(b, 1) then 1 else 2;
    v := |b| - k - 1;
    assert b == t[..|b|];
    assert t[v + 1..|b|] == b[|b| - k..];
    forall i | v < i < |b| ensures IsAsciiDigit(t[i]) {
      assert b[|b| - k..][i - (|b| - k)] == t[i];
    }
  }

  /** "_" before the tag's "V": the last "_V" is the tag's, and its digits
      are what `int` reads. */
  lemma SuffixAfterUnderscore(t: string, v: nat)
    requires v < |t| && t[v] == 'V' && v >= 1 && t[v - 1] == '_'
    requires var b := WithoutFinalNewline(t); 1 <= |b| - v - 1 <= 2 && b == t[..|b|]
    requires forall i :: |WithoutFinalNewline(t)| <= i < |t| ==> t[i] == '\n'
    requires AllDigits(t[v + 1..|WithoutFinalNewline(t)|])
    requires forall i :: v < i < |WithoutFinalNewline(t)| ==> IsAsciiDigit(t[i])
    ensures LastPiece(t) == t[v + 1..]
    ensures ParseVersion(LastPiece(t)).Some? && ParseVersion(LastPiece(t)).value < 100
  {
    var b := WithoutFinalNewline(t);
    assert IsMarkerAt(t, v - 1);
    assert LastMarker(t, |t|) == Some(v - 1);
    assert WithoutFinalNewline(t[v + 1..]) == t[v + 1..|b|];
    DigitsBelow100(t[v + 1..|b|]);
  }

  /** Anything else before the tag's "V": the last "_V" (if any) comes
      earlier, so the text after it still contains the tag's "V". */
  lemma SuffixKeepsTag(t: string, v: nat)
    requires v < |t| && t[v] == 'V' && !(v >= 1 && t[v - 1] == '_')
    requires forall i :: v < i < |WithoutFinalNewline(t)| ==> IsAsciiDigit(t[i])
    requires forall i :: |WithoutFinalNewline(t)| <= i < |t| ==> t[i] == '\n'
    ensures 'V' in LastPiece(t)
  {
    var m := LastMarker(t, |t|);
    if m.Some? {
      assert m.value + 1 < v;
      assert t[m.value + 2..][v - (m.value + 2)] == 'V';
    }
  }

  /** One or two digits are worth less than 100. */
  lemma DigitsBelow100(d: string)
    requires AllDigits(d) && |d| <= 2
    ensures DigitsValue(d) < 100
  {
    if |d| == 2 {
      assert DigitsValue(d[..1]) < 10;
    }
  }

  /** The table names the loader builds, `<prefix><n>` with a prefix ending
      in "_V", are tagged with version `n` for every `n` of at most two digits. */
  lemma TableNameRoundTrip(prefix: string, n: nat)
    requires |prefix| >= 3 && prefix[|prefix| - 2..] == "_V" && '\n' !in prefix
    ensures n < 100 ==> Classify(prefix + DecimalString(n)) == Version(n)
  {
    if n < 100 {
      var d := DecimalString(n);
      var t := prefix + d;
      var k := |d|;
      var m := |prefix| - 2;  // where the final "_V" starts
      assert prefix[m] == '_' && prefix[m + 1] == 'V';
      assert WithoutFinalNewline(t) == t;
      assert t[|t| - k..] == d;
      assert t[..|t| - k - 1] == prefix[..m + 1];
      assert EndsWithTag(t, k);
      assert IsMarkerAt(t, m);
      assert LastMarker(t, |t|) == Some(m);
      assert t[m + 2..] == d;
      DecimalRoundTrip(n);
    }
  }
}

=== FILE: units.dfy ===
/** Unit rewriting of `HAMQTTSensor.__fix_unit`: the raw unit of a datalabel
    becomes a lookup unit (kept in the sensor and used in its value template)
    and a display unit (published as `unit_of_measurement` and matched against
    the device classes). */
module Units {
  import opened Results

  /** Cubic metres per hour written with the superscript-three glyph. */
  const CubicMetresPerHour: string := "m\U{00B3}/h"

  /** The outcome of rewriting one non-empty unit. */
  datatype UnitFix = UnitFix(unit: string, display: Option<string>)

  /** The spellings the rewriting replaces by another lookup unit. */
  predicate IsSynonym(u: string) {
    u == "M3/h" || u == CubicMetresPerHour || u == "uur"
  }

  /** `__fix_unit`: repairs the common misspellings of units. */
  function FixUnit(u: string): (r: UnitFix)
    ensures !IsSynonym(r.unit)
    ensures !IsSynonym(u) ==> r.unit == u
    ensures r.display.None? <==> u == "-"
    ensures r.display.Some? && r.display.value != u ==> IsSynonym(u) || u == "m3/h"
  {
    if u == "M3/h" then UnitFix("m3/h", Some(CubicMetresPerHour))
    else if u == "m3/h" then UnitFix(u, Some(CubicMetresPerHour))
    else if u == CubicMetresPerHour then UnitFix("m3/h", Some(CubicMetresPerHour))
    else if u == "uur" then UnitFix("hour", Some("h"))
    else if u == "-" then UnitFix(u, None)
    else UnitFix(u, Some(u))
  }

  /** The rewriting table, entry by entry. */
  lemma FixUnitTable(u: string)
    ensures u == "M3/h" ==> FixUnit(u) == UnitFix("m3/h", Some(CubicMetresPerHour))
    ensures u == "m3/h" ==> FixUnit(u) == UnitFix("m3/h", Some(CubicMetresPerHour))
    ensures u == CubicMetresPerHour ==> FixUnit(u) == UnitFix("m3/h", Some(CubicMetresPerHour))
    ensures u == "uur" ==> FixUnit(u) == UnitFix("hour", Some("h"))
    ensures u == "-" ==> FixUnit(u) == UnitFix("-", None)
    ensures !IsSynonym(u) && u != "m3/h" && u != "-" ==> FixUnit(u) == UnitFix(u, Some(u))
  {
  }

  /** Rewriting an already rewritten unit leaves the lookup unit alone, and
      the display unit too, except for the Dutch hour spelling: "uur" is shown
      as "h" while its lookup unit "hour" is shown as itself. */
  lemma FixUnitIdempotent(u: string)
    ensures FixUnit(FixUnit(u).unit).unit == FixUnit(u).unit
    ensures u != "uur" ==> FixUnit(FixUnit(u).unit).display == FixUnit(u).display
    ensures u == "uur" ==> FixUnit(FixUnit(u).unit).display == Some("hour")
  {
  }

  /** All three spellings of cubic metres per hour share one lookup unit and
      one display unit. */
  lemma VolumeFlowSpellingsAgree(u: string, w: string)
    requires u in {"M3/h", "m3/h", CubicMetresPerHour}
    requires w in {"M3/h", "m3/h", CubicMetresPerHour}
    ensures FixUnit(u) == FixUnit(w)
    ensures FixUnit(u).display == Some(CubicMetresPerHour)
  {
  }
}

=== FILE: versions.dfy ===
/** `IthoParser.find_versions`: the firmware versions are 1 up to the highest
    version number found in the table names. */
module Versions {
  import opened Results
  import opened TableNames

  /** `vs` is 1, 2, ..., |vs|. */
  predicate CountsFromOne(vs: seq<nat>) {
    forall i :: 0 <= i < |vs| ==> vs[i] == i + 1
  }

  /** A list counting from one is strictly ascending, has no gaps and holds
      exactly the numbers 1 to its length. */
  lemma CountsFromOneShape(vs: seq<nat>)
    requires CountsFromOne(vs)
    ensures forall i, j :: 0 <= i < j < |vs| ==> vs[i] < vs[j]
    ensures forall i :: 0 <= i < |vs| - 1 ==> vs[i + 1] == vs[i] + 1
    ensures forall v: int :: v in vs <==> 1 <= v <= |vs|
  {
    forall v: int | 1 <= v <= |vs| ensures v in vs {
      assert vs[v - 1] == v;
    }
  }

  /** The list 1, 2, ..., n. */
  function UpTo(n: nat): (r: seq<nat>)
    ensures |r| == n && CountsFromOne(r)
  {
    seq(n, k => k + 1)
  }

  /** What `find_versions` makes of each table name, in order. */
  function Classified(tables: seq<string>): (r: seq<TagParse>)
    ensures |r| == |tables|
    ensures forall j :: 0 <= j < |tables| ==> r[j] == Classify(tables[j])
  {
    seq(|tables|, j requires 0 <= j < |tables| => Classify(tables[j]))
  }

  /** The largest version number among `cs`, 0 when there is none. */
  function Top(cs: seq<TagParse>): nat {
    if |cs| == 0 then 0
    else
      var m := Top(cs[..|cs| - 1]);
      match cs[|cs| - 1]
      case Version(v) => if v > m then v else m
      case _ => m
  }

  /** `Top` bounds every version number of `cs`, and a positive `Top` is one
      of them. */
  lemma {:induction false} TopSpec(cs: seq<TagParse>)
    ensures forall j :: 0 <= j < |cs| && cs[j].Version? ==> cs[j].number <= Top(cs)
    ensures Top(cs) > 0 ==> exists j :: 0 <= j < |cs| && cs[j] == Version(Top(cs))
  {
    if |cs| > 0 {
      var n := |cs| - 1;
      TopSpec(cs[..n]);
      assert forall j :: 0 <= j < n ==> cs[..n][j] == cs[j];
      if Top(cs) > 0 && Top(cs) == Top(cs[..n]) {
        var j :| 0 <= j < n && cs[..n][j] == Version(Top(cs[..n]));
        assert cs[j] == Version(Top(cs));
      }
    }
  }

  /** The loop of `find_versions` over the classified table names: the first
      name whose suffix `int` rejects stops it; otherwise it keeps the largest
      version number seen (0 when none is seen). */
  method Scan(cs: seq<TagParse>) returns (bad: Option<nat>, top: nat)
    ensures bad.Some? ==>
              bad.value < |cs| && cs[bad.value] == BadSuffix &&
              forall j :: 0 <= j < bad.value ==> cs[j] != BadSuffix
    ensures bad.None? ==> forall j :: 0 <= j < |cs| ==> cs[j] != BadSuffix
    ensures bad.None? ==> forall j :: 0 <= j < |cs| && cs[j].Version? ==> cs[j].number <= top
    ensures bad.None? && top > 0 ==> exists j :: 0 <= j < |cs| && cs[j] == Version(top)
    ensures bad.None? ==> top == Top(cs)
  {
    top := 0;
    ghost var best: nat := 0;  // a name carrying the largest version so far
    for i := 0 to |cs|
      invariant forall j :: 0 <= j < i ==> cs[j] != BadSuffix
      invariant forall j :: 0 <= j < i && cs[j].Version? ==> cs[j].number <= top
      invariant top > 0 ==> best < i && cs[best] == Version(top)
      invariant top == Top(cs[..i])
    {
      assert cs[..i + 1][..i] == cs[..i];
      match cs[i]
      case Untagged =>
      case BadSuffix =>
        return Some(i), top;
      case Version(v) =>
        if v > top {
          top := v;
          best := i;
        }
    }
    bad := None;
    assert cs[..|cs|] == cs;
  }

  /** `e` reports the first table whose version suffix `int` rejects. */
  predicate NamesFirstBadSuffix(tables: seq<string>, e: Error) {
    exists i :: 0 <= i < |tables| && Classify(tables[i]) == BadSuffix &&
      e == VersionNotAnInteger(tables[i]) &&
      forall j :: 0 <= j < i ==> Classify(tables[j]) != BadSuffix
  }

  /** `find_versions`: scans the tables in order; a version-tagged name whose
      suffix is not a number aborts the scan, otherwise the result counts from
      one to the largest version number seen (empty when none is seen). */
  method FindVersions(tables: seq<string>) returns (r: Result<seq<nat>>)
    ensures r.Failure? <==> exists i :: 0 <= i < |tables| && Classify(tables[i]) == BadSuffix
    ensures r.Failure? ==> NamesFirstBadSuffix(tables, r.error)
    ensures r.Success? ==> CountsFromOne(r.value)
    ensures r.Success? ==>
              forall i :: 0 <= i < |tables| && Classify(tables[i]).Version? ==>
                Classify(tables[i]).number <= |r.value|
    ensures r.Success? && |r.value| > 0 ==>
              exists i :: 0 <= i < |tables| && Classify(tables[i]) == Version(|r.value|)
    ensures r.Success? ==> |r.value| < 100
    ensures r.Success? ==> r.value == UpTo(Top(Classified(tables)))
  {
    var cs := Classified(tables);
    var bad, top := Scan(cs);
    if bad.Some? {
      r := Failure(VersionNotAnInteger(tables[bad.value]));
      assert Classify(tables[bad.value]) == BadSuffix;
      assert NamesFirstBadSuffix(tables, r.error);
      return;
    }
    assert forall j :: 0 <= j < |tables| ==> Classify(tables[j]) != BadSuffix;
    r := Success(UpTo(top));
    if top > 0 {
      var j :| 0 <= j < |cs| && cs[j] == Version(top);
      assert Classify(tables[j]) == Version(top);
    }
  }
}
